=== FILE: README.md ===
# Test-case generator core, modelled in Dafny

This project models the logic of a small web tool (openai-tc). The tool turns
specification documents and process-map images into QA test cases, and it
turns scenarios into test-automation code. The model covers four parts of it:

- **User store** (`user_management.py`):
  - `UserManager` over a document database, modelled as a state machine on
    a map from lower-cased e-mail to user record;
  - the `salt$hash` password format;
  - the role check `has_permission`.
- **Web test-case generator** (`app.py`):
  - the request plan (system context per target system and `max_tokens`
    per model);
  - the rate-limit retry loop with exponential back-off;
  - vision analysis of images with its own retry loop and a fallback text;
  - dispatch of an upload by its file name;
  - the batch loop that collects results per file name;
  - the download names.
- **Command-line generator** (`lib/claude_tc_api.py`):
  - parsing the file choice (`all` or comma-separated numbers);
  - extraction dispatch;
  - the combined content sent to the model;
  - the reading loop that skips unusable files;
  - the output file name and header.
- **Automation generator** (`pages/automation_generator.py`):
  - the language tables;
  - reading reference code files;
  - reference analysis (page-object flag, class and method lists, context
    text);
  - which sections the system prompt and the user prompt contain, and in
    what order;
  - the request built for code generation and its error path;
  - dispatch of a document by its last dot segment;
  - stripping markdown code fences from the generated code.

The outside world enters as parameters:

- **Database**: the database is a value. `Offline` models a missing
  client, and `Online(docs)` models the collection.
- **Password hashing**: PBKDF2 is a function parameter `kdf`, and the
  random salt is a parameter.
- **Current time**: the current time is an `int` parameter.
- **Model API**: every call to it is an oracle. A sequence of `Reply`
  values gives what the i-th call would return, either an answer, a
  rate-limit error, an invalid-request error or any other error.
- **Text extraction**: PDF, Word and image-encoding libraries are
  `Result` parameters.
- **Regular expressions** that list classes and methods in reference code
  are function parameters.
- **Prompts**: prompts are modelled as sequences of section values.
  Section identity and order are modelled; wording is not.

Modules:

| module | file | models |
|---|---|---|
| `Basics` | basics.dfy | `Option`, `Result`, Python truthiness of an optional string |
| `Text` | text.dfy | `str.lower` (ASCII), `strip`, `split`, `join`, `in`, `int()`, decimal rendering, hex |
| `Paths` | paths.dfy | `os.path.basename`, `os.path.join`, `os.path.splitext`, `split('.')[-1]` |
| `Retry` | retry.dfy | the `for attempt in range(max_retries)` rate-limit loop |
| `Users` | users.dfy | `UserManager` and `has_permission` |
| `App` | app.dfy | `app.py` |
| `Cli` | cli.dfy | `lib/claude_tc_api.py` |
| `Automation` | automation.dfy | `pages/automation_generator.py` |

Where the two document dispatchers differ:

- `app.py` tests `name.lower().endswith('.pdf')`.
- The automation page tests `name.lower().split('.')[-1] == 'pdf'`.
- They agree on every name the first one accepts
  (`Automation.DocumentDispatchAgrees`).
- They differ on the bare name `pdf`, which only the automation page
  accepts (`Automation.BareNameIsReadAsDocument`).

Download names in the web generator are the upload name with its extension
replaced. Two uploads that differ only in extension therefore get the same
name inside the zip archive (`App.DownloadNamesCanCollide`).

## Model

| member | source | states |
|---|---|---|
| Users.HashPassword | user_management.py:31-35 | the stored hash is exactly two `$`-separated fields, the first of which is the hex of the salt (64 hex digits for a 32-byte salt) |
| Users.PasswordRoundTrip | user_management.py:31-43 | a password always verifies against the hash made from it, whatever the salt |
| Users.VerifyCharacterized | user_management.py:37-43 | `salt$digest` verifies iff the hex of the derived key equals the digest; a string without `$`, or with more than one, never verifies |
| Users.GetUserIgnoresCase | user_management.py:72-81 | an address and its lower-cased form find the same record |
| Users.CreateUser | user_management.py:45-70 | fails and changes nothing when offline or the e-mail exists; otherwise adds exactly one key, leaves other users alone, and stores an active user with zero logins, the given role and creator, and a hash that verifies the password |
| Users.UpdateLoginInfo | user_management.py:92-104 | for a known user, the login count goes up by one and the last login is now, and nothing else in the store changes; for an unknown user, nothing changes |
| Users.AuthenticateUser | user_management.py:83-90 | succeeds iff the user exists, is active and the password verifies; returns the record as it was before the login was counted; on failure the store is unchanged |
| Users.UpdateUserRole | user_management.py:124-138 | succeeds iff the user exists; sets only the role and its stamp; other users and fields unchanged |
| Users.DeactivateUser | user_management.py:140-154 | succeeds iff the user exists; clears only the active flag and sets its stamp |
| Users.ResetUserPassword | user_management.py:156-171 | succeeds iff the user exists; the new password verifies, a password change is forced, and the reset is stamped |
| Users.ChangeOwnPassword | user_management.py:173-192 | succeeds iff the user exists and the old password verifies; the new password verifies and the forced-change flag is cleared |
| Users.DeactivatedCannotLogIn | user_management.py:83-90 | after deactivation no password logs the user in, under any spelling of the e-mail |
| Users.CreatedUserCanLogIn | user_management.py:45-104 | a newly created user logs in with their password, reports zero logins, and the store then counts one |
| Users.CreatedUserIsFound | user_management.py:45-81 | creation fails exactly when the database is offline or the address is already found; after a creation the address finds the new record, which accepts the password, and every other address finds what it found before |
| Users.ResetPasswordLogsIn | user_management.py:156-171 | after a reset the temporary password logs an active user in, and the record demands a password change |
| Users.ChangedPasswordLogsIn | user_management.py:173-192 | after a change the new password logs an active user in without a forced change |
| Users.InsertNewestFirst | user_management.py:106-122 | inserting a view keeps the list ordered newest first and adds exactly that view |
| Users.GetAllUsers | user_management.py:106-122 | one view per stored user, each matching its record, ordered by creation time newest first; empty when offline |
| Users.PermissionNeedsKnownRole | user_management.py:235-248 | an unauthenticated session, or a role outside user/admin/super_admin, has no permission |
| Users.AdminCheckCharacterized | user_management.py:235-248 | `admin` is granted exactly to authenticated admins and super admins; `user` to every authenticated known role |
| Users.PermissionMonotone | user_management.py:235-248 | a session whose role ranks at least as high holds every permission a lower one holds |
| Retry.Attempt | app.py:347-370 | from a given attempt, each call that is retried met a rate limit, each wait is that attempt's back-off, and the outcome is the last reply |
| Retry.RunWithRetries | app.py:347-370 | between 1 and the budget calls; all but the last met a rate limit; it stops early only on a reply that is not a rate limit; the waits are the back-off prefix; the outcome is the last reply |
| Retry.FirstNonRateLimitDecides | app.py:347-370 | the number of calls is one more than the number of leading rate limits when that is within the budget |
| Retry.ExhaustedRaisesLastRateLimit | app.py:361-368 | when every attempt is rate limited, all back-offs are slept and the last rate-limit error escapes |
| App.GeneralTargetIsNoTarget | app.py:287-331 | an empty target and "General" give the same request as no target, and that request has no target block |
| App.TargetOnlyAddsTargetBlock | app.py:278-358 | two requests that differ only in the target system agree in everything but the target block |
| App.UnknownSystemIsNamed | app.py:287-331 | any other target system is named in the request, and it carries no guidance exactly when it is not Oracle, SAP, Salesforce or MuleSoft |
| App.GenerateTestCases | app.py:347-370 | at most three calls with waits 1 and 2 seconds; a first reply that is not a rate limit ends the loop; answered iff the last reply is a completion, and the answer is that reply's text; 4000 tokens for gpt-3.5-turbo and 8000 for any other model |
| App.VisionModelIdempotent | app.py:198 | the model chosen for vision is itself vision-capable, so choosing again keeps it |
| App.MimeTypeFor | app.py:188-195 | the MIME type is jpeg exactly for a lower-cased extension of .jpg or .jpeg, gif exactly for .gif, webp exactly for .webp, and png for every other extension |
| App.MimeOfNamedImage | app.py:188-195 | a file name made of a stem and one of the five image endings gets that ending's MIME type |
| App.VisionText | app.py:201-276 | an answer is the text; any raised error yields the fallback text naming the file |
| App.ProcessImageWithVision | app.py:183-276 | an unreadable image makes no call and yields the fallback; otherwise one call, or two with a 5-second wait when the first is rate limited; a completion is returned as is; a failure yields the fallback naming the file and the last reply's reason |
| App.EndingsExclusive | app.py:385-403 | two endings that differ in their last two characters cannot both end a name |
| App.ImageIsNoDocument | app.py:385-403 | an image name never takes a document branch |
| App.ClassifyUpload | app.py:384-405 | each upload kind is chosen iff the lower-cased name has that kind's ending, with `.doc` checked after `.docx` |
| App.ProcessUploadedFile | app.py:372-411 | exactly one of result and error; an unsupported name yields the fixed error and no request; documents yield an extraction error or a "technical specification" request of the extracted text; images yield a "process map" request; for a request, test cases are present iff its retry loop ends in an answer, and they are that answer; otherwise the error is the loop's message |
| App.Assign | app.py:614-618 | assigning a file's result keeps the results well formed and updates that name only; a name already present keeps its place, and a new name goes last |
| App.CollectResults | app.py:602-618 | a name has a result iff some upload of that name was accepted; a later accepted upload of the same name overwrites an earlier one; every stored value came from an accepted run |
| App.ProcessBatch | app.py:602-618 | every upload is processed in order, with a 2-second sleep before each one but the first; the results are those of the accepted uploads; with no empty error string, every stored result is present |
| App.RunUploads | app.py:602-612 | one run per upload in order, each the processing of that upload, and a 2-second sleep between consecutive uploads |
| App.DownloadNameReplacesExtension | app.py:661-669 | the download name ends in `_test_cases.<ext>` and its stem is the upload name minus at most one dot extension |
| App.DownloadNamesCanCollide | app.py:688-696 | any two uploads that share a stem and differ only in a dot-free extension get the same archive entry name |
| Cli.AllParsed | lib/claude_tc_api.py:170-184 | the numbers are present iff every piece parsed, and then they are the parsed values in order |
| Cli.Pick | lib/claude_tc_api.py:174-180 | at most one file per number, all from the list; exactly one per number when all numbers are in range |
| Cli.PickAppend | lib/claude_tc_api.py:174-180 | picking for two runs of numbers is picking for each in turn |
| Cli.PickOne | lib/claude_tc_api.py:174-180 | an in-range number picks the file at that 1-based position; any other number picks nothing |
| Cli.SelectFiles | lib/claude_tc_api.py:158-184 | `all` in any case with surrounding blanks selects every file; otherwise at most one file per piece, only listed files, and nothing at all if any piece is not an integer |
| Cli.SelectByNumbers | lib/claude_tc_api.py:170-180 | when every piece parses, the selection is exactly the files picked by those numbers |
| Cli.AllIsAll | lib/claude_tc_api.py:166-167 | typing `all` selects every file |
| Cli.SelectAllNumbers | lib/claude_tc_api.py:170-180 | typing `1,2,...,n` for n files selects every file in order |
| Cli.SelectEveryNumber | lib/claude_tc_api.py:158-184 | typing every number is the same as typing `all`, also when no files are listed |
| Cli.EmptyChoiceSelectsNothing | lib/claude_tc_api.py:170-184 | an empty answer selects no file, because the empty piece does not parse |
| Cli.NumberListIsPlain | lib/claude_tc_api.py:163-167 | the list of numbers is unchanged by strip and is never mistaken for `all` |
| Cli.ListedFilesMembers | lib/claude_tc_api.py:197 | the files offered are exactly the directory entries whose lower-cased name ends in .pdf or .docx |
| Cli.ListedFileIsRead | lib/claude_tc_api.py:35-46 | every offered file passes the extraction step wherever the docs directory is: a successful read yields its text under the file's own name |
| Cli.ExtractTextFromFile | lib/claude_tc_api.py:35-46 | succeeds iff the lower-cased path ends in .pdf or .docx and the library read succeeds, yielding the base name and the text; other names fail with the unsupported-format message naming the base name |
| Cli.DocumentBlock | lib/claude_tc_api.py:55-57 | each document's block opens and closes with markers naming the document, and exactly the document's text lies between them |
| Cli.CombinedContentAppend | lib/claude_tc_api.py:53-57 | the combined content of two lists is the concatenation of their combined contents |
| Cli.CombinedContentSingle | lib/claude_tc_api.py:53-57 | one document's combined content is its own block |
| Cli.CombinedContentHoldsEach | lib/claude_tc_api.py:53-57 | every document's block occurs in the combined content |
| Cli.UsableIsKept | lib/claude_tc_api.py:112-127 | every chosen file that exists and can be read survives under its chosen name |
| Cli.KeptIsUsable | lib/claude_tc_api.py:112-127 | every surviving name belongs to a chosen file that exists and can be read |
| Cli.UsableDocumentsNamed | lib/claude_tc_api.py:112-127 | the surviving documents line up with the surviving names, each listed under its name's base name |
| Cli.UsableTextIsKept | lib/claude_tc_api.py:112-127 | the text read from every usable chosen file is among the documents, under the file's base name |
| Cli.UsableTextIsSent | lib/claude_tc_api.py:53-57 | the request sent carries the text of every usable chosen file between the markers naming it |
| Cli.UsableIsNamed | lib/claude_tc_api.py:113-124 | a readable document is listed under the base name of its chosen file, wherever the docs directory is |
| Cli.GatherOne | lib/claude_tc_api.py:112-127 | one loop turn appends a usable file's name and its text under its base name, and leaves both lists unchanged otherwise |
| Cli.GatherDocuments | lib/claude_tc_api.py:112-127 | the surviving names are the usable chosen names in order, and the documents are exactly their read texts in the same order, each under that name's base name |
| Cli.OutputNameCount | lib/claude_tc_api.py:138-141 | a combined output name holds, between its fixed prefix and suffix, the number of files, which parses back |
| Cli.OutputNameSingle | lib/claude_tc_api.py:138-139 | a single document's output name ends in `_test_cases.txt` after a stem that begins the document's name, and what the stem leaves off is at most one dot extension |
| Cli.ProcessMultipleDocuments | lib/claude_tc_api.py:100-155 | no names gives the no-files outcome; no usable file gives the nothing-processed outcome; otherwise the request carries exactly the read texts of the usable files, and a failed generation reports its message, a failed write of the output file reports its message and the output name, and success writes the header and the text under the output name |
| Automation.FileExtensionFor | pages/automation_generator.py:624-631 | the extension is `txt` exactly for unknown languages, and it is never empty and has no dot |
| Automation.CodeBlockLanguage | pages/automation_generator.py:633-640 | the highlighting name is `text` exactly for unknown languages, and a known language is highlighted under its own name in lower case |
| Automation.FileTypeFor | pages/automation_generator.py:179-185 | JavaScript exactly for `js`, TypeScript exactly for `ts`, Python exactly for `py`, and "Unknown" for every other extension |
| Automation.LanguageTablesAgree | pages/automation_generator.py:624-640 | the two language tables fall back together, and a known language's extension reads back as that language |
| Automation.ExtractCodeFromFile | pages/automation_generator.py:170-197 | exactly one of file and error; decoded text gives the file with the lower-cased last dot segment as extension and its type; undecodable and unreadable files give their two messages |
| Automation.DownloadedCodeIsRecognised | pages/automation_generator.py:170-185 | a downloaded code file, uploaded back as reference, is recognised as the language it was generated in |
| Automation.AnalyzeReferenceCode | pages/automation_generator.py:199-251 | the reference context is empty exactly when there are no files |
| Automation.AnalyzeDetectsPom | pages/automation_generator.py:216-219 | the page-object flag is set iff some file looks like a page object |
| Automation.SummarizeSplit | pages/automation_generator.py:206-249 | analysing a list of files is merging the analyses of any split of it |
| Automation.AnalyzeAppend | pages/automation_generator.py:199-251 | analysing two lists of files is combining their two analyses |
| Automation.AnalyzeSingle | pages/automation_generator.py:212-226 | one file's analysis is its page-object test, the class and method lists of its content, and a context that is `--- name ---` followed by its content |
| Automation.ReferenceContextHoldsEach | pages/automation_generator.py:210-214 | every reference file's block occurs in the context |
| Automation.SystemPrompt | pages/automation_generator.py:253-450 | sections appear in the fixed order, opening with the expertise section, and always include the selector heading |
| Automation.SystemPromptFramework | pages/automation_generator.py:306-385 | a framework section is present iff the framework is known, and it is that framework's |
| Automation.SystemPromptPom | pages/automation_generator.py:387-407 | the page-object section is present iff page objects are requested |
| Automation.SystemPromptSelector | pages/automation_generator.py:409-435 | a selector guidance section is present iff the strategy is known, and it is that strategy's |
| Automation.SystemPromptReference | pages/automation_generator.py:437-448 | a reference-code section is present iff the reference context is a non-empty string, and it carries that context |
| Automation.UserPrompt | pages/automation_generator.py:452-509 | sections in fixed order from scenario to deliverables; the reference analysis is present iff a summary flags page objects and lists at most the first 5 classes and 10 methods; extra requirements are present iff the context is non-empty |
| Automation.PlanAutomationRequest | pages/automation_generator.py:511-580 | the system prompt is the one for the chosen language, framework, selector strategy and page-object flag: it opens with their expertise section, has framework practices iff the framework is known, the page-object section iff requested, and selector guidance iff the strategy is known; the user prompt opens with the description and has extra requirements iff the context is non-empty, carrying it; an image is attached iff one is given; 4000 tokens; a reference section is present iff reference files are given and carries their context; the user prompt analyses references iff some file looks like a page object |
| Automation.GenerateAutomationCode | pages/automation_generator.py:511-584 | exactly one of code and error; the code is the reply's text, and the error is the failure message |
| Automation.DocumentKindOf | pages/automation_generator.py:608-617 | each document kind is chosen iff the lower-cased last dot segment is its name |
| Automation.ProcessUploadedDocument | pages/automation_generator.py:600-622 | exactly one of text and error; an unknown segment gives the unsupported-format error; otherwise the extraction's text or message |
| Automation.DocumentDispatchAgrees | pages/automation_generator.py:608-617 | every name the web page reads as pdf, docx or doc is read as the same kind here |
| Automation.BareNameIsReadAsDocument | pages/automation_generator.py:608-617 | the bare name `pdf` is a PDF here but unsupported on the web page |
| Automation.FencedBlocks | pages/automation_generator.py:966-967 | no extracted block contains a fence |
| Automation.CleanCode | pages/automation_generator.py:963-969 | code without a fence is shown unchanged |
| Automation.CleanCodeUnwraps | pages/automation_generator.py:963-969 | one fenced block with a word language tag is unwrapped to exactly its body |

## Left out

- Streamlit UI, session state, login and management forms, progress bars and messages: presentation only.
- The Firestore client, its credentials and the `init_super_admin` bootstrap: the database is a map value, and a missing client is `Offline`.
- `activate_user`: the management page calls it (user_management.py:401), but `UserManager` never defines it, so there is no behaviour to model.
- `tc_api.py` and `gcp_secure_config.py`: gcp_secure_config.py and lib/tc_api.py are not part of this model.
- Users.HashPassword: PBKDF2-HMAC-SHA256 with 100000 rounds is an opaque `kdf` parameter, and the 32 random bytes are a `salt` parameter.
- Users.GetAllUsers: the database's listing order is left abstract, so the order among users with equal creation times is not stated.
- Users.AuthenticateUser: the login time comes from a clock, so it is a parameter.
- Text.Lower: Python's `str.lower` is Unicode-aware, but the model lowers ASCII letters only.
- Text.ParseInt: Python's `int()` also accepts non-ASCII digits, which the model does not.
- Automation.FencedBlocks: the word-character class of `\w` is ASCII-only in the model.
- OpenAI and Anthropic HTTP calls: they are replies in an oracle sequence. Request bodies are modelled by their fields and prompt sections, not by their JSON. The sampling temperature is not modelled: it is 0.2 for the test-case and vision requests and 0.7 for automation code.
- PDF, DOCX and DOC text extraction and base64 image encoding: they are `Result` parameters.
- Writing an upload to a temporary file: a failed write is not modelled. Both `process_uploaded_file` and `process_uploaded_document` would return it as the error half of their result.
- App.ProcessUploadedFile: the temporary path is the unconstrained parameter `Upload.tmpPath`. The source makes it end in `_` followed by the upload's name. The vision step takes its MIME type and the fallback's file name from that path, so the model does not tie them to the upload's name.
- Deleting temporary files: cleanup I/O that happens after the results are computed.
- `time.sleep`: recorded as a list of waits; no time passes in the model.
- Cli.ProcessMultipleDocuments: a write that fails part-way leaves a partial output file behind; the model reports only the failure and its message.
- The regular expressions in reference code: class and method lists are function parameters. The locator list is filled but no prompt reads it, and the import list is never filled.
- Prompt wording, timestamps in file names and the generated code's download name: text only, no logic.
- Automation.UserPrompt: the `framework` argument is accepted but never used by the source, and so it is not a parameter here.
- The CLI `main` loop creating the docs directory, reading the directory entries and reading stdin: the listing, selection and processing functions are modelled with their inputs as values.

=== FILE: app.dfy ===
/** The web test-case generator: how one upload is dispatched on its file
    name, how the chat-completion request is planned and retried, how a
    process-map image is described by the vision model (or replaced by a
    manual-description template), how a batch of uploads is collected, and
    how download file names are chosen.

    Text extraction, image encoding and the API are oracles supplied with
    each upload; sleeps are recorded, not performed. */
module App {
  import opened Basics
  import opened Text
  import opened Paths
  import opened Retry

  // ---------------------------------------------------------------------
  // Output formats and download names

  datatype OutputFormat = Markdown | Csv | Json | Excel

  function FormatExtension(format: OutputFormat): string {
    match format
    case Markdown => "md"
    case Csv => "csv"
    case Json => "json"
    case Excel => "tsv"
  }

  /** The name of one downloaded result, used both for the single-file
      download button and for the entry in the ZIP of all results: the
      upload's name without its extension, then `_test_cases.` and the
      format's extension. */
  function DownloadFileName(filename: string, format: OutputFormat): string {
    SplitExt(filename).0 + "_test_cases." + FormatExtension(format)
  }

  /** The download name is the upload name with at most its extension
      replaced: it ends in `_test_cases.<ext>`, and what precedes that is the
      upload name minus an extension that is empty or a dot followed by
      dot-free text. */
  lemma DownloadNameReplacesExtension(filename: string, format: OutputFormat)
    ensures var d := DownloadFileName(filename, format);
      var suffix := "_test_cases." + FormatExtension(format);
      var stem := d[..|d| - |suffix|];
      && EndsWith(d, suffix)
      && StartsWith(filename, stem)
      && var dropped := filename[|stem|..];
         dropped == "" || (dropped[0] == '.' && '.' !in dropped[1..])
  {
    var root := SplitExt(filename).0;
    var d := DownloadFileName(filename, format);
    var suffix := "_test_cases." + FormatExtension(format);
    SplitExtParts(filename);
    assert d == root + suffix;
    assert d[..|d| - |suffix|] == root;
    assert d[|d| - |suffix|..] == suffix;
    assert filename[..|root|] == root;
    assert filename[|root|..] == SplitExt(filename).1;
  }

  /** Two uploads that differ only in their extension get the same download
      name, so the ZIP of all results then holds two entries of one name. */
  lemma DownloadNamesCanCollide(stem: string, ext1: string, ext2: string, format: OutputFormat)
    requires |stem| > 0 && stem[|stem| - 1] != '.' && stem[|stem| - 1] != '/'
    requires '.' !in ext1 && '/' !in ext1 && '.' !in ext2 && '/' !in ext2
    ensures DownloadFileName(stem + "." + ext1, format) == DownloadFileName(stem + "." + ext2, format)
  {
    SplitExtOfDotted(stem, ext1);
    SplitExtOfDotted(stem, ext2);
  }

  // ---------------------------------------------------------------------
  // The test-case request

  datatype SystemContext = OracleContext | SapContext | SalesforceContext | MuleSoftContext | NoContext

  /** The system-specific guidance attached for a target system. */
  function ContextFor(system: string): SystemContext {
    if system == "Oracle" then OracleContext
    else if system == "SAP" then SapContext
    else if system == "Salesforce" then SalesforceContext
    else if system == "MuleSoft" then MuleSoftContext
    else NoContext
  }

  /** The "Target System" block of the prompt and the system-role suffix. */
  datatype TargetInfo = TargetInfo(system: string, context: SystemContext)

  datatype TestCaseRequest = TestCaseRequest(
    model: string,
    maxTokens: nat,
    format: OutputFormat,
    documentType: string,
    specText: string,
    target: Option<TargetInfo>)

  /** The completion budget: 4000 tokens for gpt-3.5-turbo, 8000 otherwise. */
  function MaxTokensFor(model: string): (n: nat)
    ensures n == 4000 || n == 8000
    ensures n == 4000 <==> model == "gpt-3.5-turbo"
  {
    if model == "gpt-3.5-turbo" then 4000 else 8000
  }

  /** Target-system information is attached only for a target that is set,
      non-empty and not "General"; its guidance is the one for that system,
      or none for a system without one. */
  function PlanRequest(specText: string, documentType: string, format: OutputFormat, model: string,
                       target: Option<string>): (q: TestCaseRequest)
    ensures q.target.Some? <==> Truthy(target) && target.value != "General"
    ensures q.target.Some? ==> q.target.value == TargetInfo(target.value, ContextFor(target.value))
    ensures q.maxTokens == MaxTokensFor(model) && q.model == model && q.format == format
    ensures q.documentType == documentType && q.specText == specText
  {
    var info := if Truthy(target) && target.value != "General"
                then Some(TargetInfo(target.value, ContextFor(target.value))) else None;
    TestCaseRequest(model, MaxTokensFor(model), format, documentType, specText, info)
  }

  /** A target that is unset, empty or "General" plans the same request:
      one without target-system information. */
  lemma GeneralTargetIsNoTarget(specText: string, documentType: string, format: OutputFormat, model: string)
    ensures PlanRequest(specText, documentType, format, model, Some("")) == PlanRequest(specText, documentType, format, model, None)
    ensures PlanRequest(specText, documentType, format, model, Some("General")) == PlanRequest(specText, documentType, format, model, None)
    ensures PlanRequest(specText, documentType, format, model, None).target.None?
  {
  }

  /** The target system changes nothing but the target block: two plans
      that differ only in their target agree once the block is removed. */
  lemma TargetOnlyAddsTargetBlock(specText: string, documentType: string, format: OutputFormat, model: string,
                                  target1: Option<string>, target2: Option<string>)
    ensures PlanRequest(specText, documentType, format, model, target1).(target := None)
         == PlanRequest(specText, documentType, format, model, target2).(target := None)
  {
  }

  /** A system without its own guidance is still named in the request, with
      no guidance attached; the four known systems get their own. */
  lemma UnknownSystemIsNamed(specText: string, documentType: string, format: OutputFormat, model: string, system: string)
    requires system != "" && system != "General"
    ensures var q := PlanRequest(specText, documentType, format, model, Some(system));
      && q.target == Some(TargetInfo(system, ContextFor(system)))
      && (q.target.value.context == NoContext <==> system !in {"Oracle", "SAP", "Salesforce", "MuleSoft"})
  {
  }

  const GenMaxRetries: nat := 3

  /** `2 ** attempt` seconds after a rate limit on attempt `attempt`, for
      the two attempts that can be followed by another. */
  const GenBackoff: seq<nat> := [1, 2]

  datatype GenerationRun = GenerationRun(request: TestCaseRequest, trace: Trace)

  /** `generate_test_cases`: at most three calls; a rate limit on the first
      or second call sleeps 1 and then 2 seconds before the next; the third
      rate limit, like any other error at any attempt, is raised. */
  function GenerateTestCases(specText: string, documentType: string, format: OutputFormat, model: string,
                             target: Option<string>, replies: seq<Reply>): (run: GenerationRun)
    requires |replies| >= GenMaxRetries
    ensures run.request == PlanRequest(specText, documentType, format, model, target)
    ensures run.request.maxTokens == (if model == "gpt-3.5-turbo" then 4000 else 8000)
    ensures 1 <= run.trace.calls <= 3
    ensures run.trace.waits == [1, 2][..run.trace.calls - 1]
    ensures forall j :: 0 <= j < run.trace.calls - 1 ==> replies[j].RateLimited?
    ensures !replies[0].RateLimited? ==> run.trace.calls == 1
    ensures run.trace.calls < 3 ==> !replies[run.trace.calls - 1].RateLimited?
    ensures run.trace.outcome.Answered? <==> replies[run.trace.calls - 1].Completion?
    ensures run.trace.outcome.Answered? ==> run.trace.outcome.content == replies[run.trace.calls - 1].content
    ensures run.trace.outcome.Raised? ==> run.trace.outcome.error == replies[run.trace.calls - 1]
  {
    GenerationRun(PlanRequest(specText, documentType, format, model, target), RunWithRetries(replies, GenBackoff))
  }

  // ---------------------------------------------------------------------
  // Vision analysis of a process map

  /** Vision-capable models are kept; anything else falls back to gpt-4o. */
  function VisionModelFor(model: string): (m: string)
    ensures m in {"gpt-4o", "gpt-4", "gpt-4-vision-preview"}
    ensures model in {"gpt-4o", "gpt-4", "gpt-4-vision-preview"} ==> m == model
    ensures model !in {"gpt-4o", "gpt-4", "gpt-4-vision-preview"} ==> m == "gpt-4o"
  {
    if model == "gpt-4o" || model == "gpt-4" || model == "gpt-4-vision-preview" then model else "gpt-4o"
  }

  /** Choosing a vision model twice chooses the same one: the model chosen
      is always one the vision endpoint takes, and it is kept. */
  lemma VisionModelIdempotent(model: string)
    ensures VisionModelFor(VisionModelFor(model)) == VisionModelFor(model)
  {
  }

  /** The image's media type, from the lower-cased extension; PNG by default. */
  function MimeTypeFor(filepath: string): (mime: string)
    ensures mime in {"image/png", "image/jpeg", "image/gif", "image/webp"}
    ensures var ext := Lower(SplitExt(filepath).1);
      && (mime == "image/jpeg" <==> ext == ".jpg" || ext == ".jpeg")
      && (mime == "image/gif" <==> ext == ".gif")
      && (mime == "image/webp" <==> ext == ".webp")
      && (mime == "image/png" <==> ext !in {".jpg", ".jpeg", ".gif", ".webp"})
  {
    var ext := Lower(SplitExt(filepath).1);
    if ext == ".png" then "image/png"
    else if ext == ".jpg" || ext == ".jpeg" then "image/jpeg"
    else if ext == ".gif" then "image/gif"
    else if ext == ".webp" then "image/webp"
    else "image/png"
  }

  /** An image named with one of the uploader's lower-case image endings
      is sent with that ending's media type. */
  lemma MimeOfNamedImage(stem: string, ending: string)
    requires |stem| > 0 && stem[|stem| - 1] != '.' && stem[|stem| - 1] != '/'
    requires ending in {".png", ".jpg", ".jpeg", ".gif", ".webp"}
    ensures var mime := MimeTypeFor(stem + ending);
      && (ending == ".png" ==> mime == "image/png")
      && (ending == ".jpg" || ending == ".jpeg" ==> mime == "image/jpeg")
      && (ending == ".gif" ==> mime == "image/gif")
      && (ending == ".webp" ==> mime == "image/webp")
  {
    var ext := ending[1..];
    assert ending == "." + ext;
    assert stem + ending == stem + "." + ext;
    SplitExtOfDotted(stem, ext);
    assert SplitExt(stem + ending).1 == ending;
    LowerOfImageEnding(ending);
  }

  lemma LowerOfImageEnding(ending: string)
    requires ending in {".png", ".jpg", ".jpeg", ".gif", ".webp"}
    ensures Lower(ending) == ending
  {
    forall i | 0 <= i < |ending|
      ensures LowerChar(ending[i]) == ending[i]
    {
    }
  }

  const VisionMaxRetries: nat := 2

  /** `5 * (attempt + 1)` seconds after a rate limit on a non-final attempt. */
  const VisionBackoff: seq<nat> := [5 * (0 + 1)]

  const FallbackHeading: string := "\nPROCESS MAP ANALYSIS REQUIRED - "

  /** The manual-description template returned instead of raising; the six
      numbered headings that follow the reason are not reproduced. */
  function FallbackText(filename: string, reason: string): (t: string)
    ensures StartsWith(t, FallbackHeading + filename)
  {
    var t := FallbackHeading + filename + "\n\nVision analysis failed (" + reason
             + "). Please manually describe this process map.";
    assert t[..|FallbackHeading + filename|] == FallbackHeading + filename;
    t
  }

  /** The message of the exception that ends the vision attempt. An invalid
      request mentioning "vision" or "model" becomes a fixed message naming
      the model; every other error keeps its own message. */
  function VisionFailureReason(error: Reply, visionModel: string): string
    requires !error.Completion?
  {
    match error
    case InvalidRequest(msg) =>
      var lowered := Lower(msg);
      if Contains(lowered, "vision") || Contains(lowered, "model")
      then "Vision API not available with model " + visionModel
      else msg
    case RateLimited(msg) => msg
    case Failed(msg) => msg
  }

  /** What the vision step says about the image once the retry loop is
      over: the model's answer, or the fallback template with the reason. */
  function VisionText(t: Trace, filename: string, visionModel: string): (text: string)
    requires t.outcome.Raised? ==> !t.outcome.error.Completion?
    ensures t.outcome.Answered? ==> text == t.outcome.content
    ensures t.outcome.Raised? ==> StartsWith(text, FallbackHeading + filename)
  {
    match t.outcome
    case Answered(content) => content
    case Raised(e) => FallbackText(filename, VisionFailureReason(e, visionModel))
  }

  datatype VisionRun = VisionRun(text: string, model: string, mime: string, calls: nat, waits: seq<nat>)

  /** `process_image_with_vision`: never raises. It makes no call when the
      image cannot be read, and otherwise at most two, sleeping 5 seconds at
      most once; the description is the answer when one arrives and the
      fallback template, headed by the file's base name, otherwise. */
  function ProcessImageWithVision(filepath: string, model: string, image: Result<string>, replies: seq<Reply>)
    : (run: VisionRun)
    requires |replies| >= VisionMaxRetries
    ensures run.model == VisionModelFor(model) && run.mime == MimeTypeFor(filepath)
    ensures image.Err? ==> run.calls == 0 && run.waits == []
    ensures image.Err? ==> run.text == FallbackText(Basename(filepath), image.message)
    ensures image.Ok? ==> 1 <= run.calls <= 2 && run.waits == [5][..run.calls - 1]
    ensures image.Ok? && replies[0].Completion? ==> run.text == replies[0].content && run.calls == 1
    ensures image.Ok? && replies[0].RateLimited? && replies[1].Completion? ==> run.text == replies[1].content
    ensures image.Ok? && !replies[0].RateLimited? ==> run.calls == 1
    ensures image.Ok? && !replies[run.calls - 1].Completion? ==> StartsWith(run.text, FallbackHeading + Basename(filepath))
    ensures image.Ok? && !replies[run.calls - 1].Completion? ==>
      run.text == FallbackText(Basename(filepath), VisionFailureReason(replies[run.calls - 1], run.model))
  {
    if image.Err? then
      VisionRun(FallbackText(Basename(filepath), image.message), VisionModelFor(model), MimeTypeFor(filepath), 0, [])
    else
      var t := RunWithRetries(replies, VisionBackoff);
      assert VisionBackoff[..t.calls - 1] == [5][..t.calls - 1];
      VisionRun(VisionText(t, Basename(filepath), VisionModelFor(model)), VisionModelFor(model), MimeTypeFor(filepath),
                t.calls, t.waits)
  }

  // ---------------------------------------------------------------------
  // One upload

  datatype UploadKind = PdfUpload | DocxUpload | DocUpload | ImageUpload | UnsupportedUpload

  /** The image endings the uploader accepts. */
  predicate HasImageSuffix(lowered: string) {
    EndsWith(lowered, ".png") || EndsWith(lowered, ".jpg") || EndsWith(lowered, ".jpeg")
    || EndsWith(lowered, ".gif") || EndsWith(lowered, ".webp")
  }

  /** Two endings that differ in one of their last two characters cannot
      both end the same text. */
  lemma EndingsExclusive(s: string, a: string, b: string)
    requires |a| >= 2 && |b| >= 2
    requires a[|a| - 1] != b[|b| - 1] || a[|a| - 2] != b[|b| - 2]
    ensures !(EndsWith(s, a) && EndsWith(s, b))
  {
  }

  /** An image name ends in none of the document endings. */
  lemma ImageIsNoDocument(s: string)
    requires HasImageSuffix(s)
    ensures !EndsWith(s, ".pdf") && !EndsWith(s, ".docx") && !EndsWith(s, ".doc")
  {
    var document := [".pdf", ".docx", ".doc"];
    var image := [".png", ".jpg", ".jpeg", ".gif", ".webp"];
    forall d, e | d in document && e in image
      ensures !(EndsWith(s, d) && EndsWith(s, e))
    {
      EndingsExclusive(s, d, e);
    }
    assert exists e :: e in image && EndsWith(s, e);
  }

  /** Dispatch on the lower-cased name's ending. No name has two of the
      endings, so each kind is exactly the names with its ending. */
  function ClassifyUpload(name: string): (kind: UploadKind)
    ensures kind == PdfUpload <==> EndsWith(Lower(name), ".pdf")
    ensures kind == DocxUpload <==> EndsWith(Lower(name), ".docx")
    ensures kind == DocUpload <==> EndsWith(Lower(name), ".doc")
    ensures kind == ImageUpload <==> HasImageSuffix(Lower(name))
  {
    var lowered := Lower(name);
    EndingsExclusive(lowered, ".pdf", ".docx");
    EndingsExclusive(lowered, ".pdf", ".doc");
    EndingsExclusive(lowered, ".docx", ".doc");
    if HasImageSuffix(lowered) then ImageIsNoDocument(lowered); ImageUpload
    else if EndsWith(lowered, ".pdf") then PdfUpload
    else if EndsWith(lowered, ".docx") then DocxUpload
    else if EndsWith(lowered, ".doc") then DocUpload
    else UnsupportedUpload
  }

  /** An uploaded file together with what the outside world does with it:
      the temporary path it is written to, what text extraction yields, what
      reading and encoding the image yields, and the replies of the vision
      and the chat-completion endpoints. */
  datatype Upload = Upload(
    name: string,
    tmpPath: string,
    extraction: Result<string>,
    image: Result<string>,
    visionReplies: seq<Reply>,
    genReplies: seq<Reply>)

  /** The oracle holds a reply for every call the retry loops may make. */
  predicate Supplied(u: Upload) {
    |u.visionReplies| >= VisionMaxRetries && |u.genReplies| >= GenMaxRetries
  }

  datatype Settings = Settings(format: OutputFormat, model: string, enableVision: bool, target: Option<string>)

  /** What processing one upload returned, as the `(test_cases, error)`
      pair, and the request it sent, if any. */
  datatype UploadRun = UploadRun(testCases: Option<string>, error: Option<string>, request: Option<TestCaseRequest>)

  const VisionDisabledNote: string :=
    "\n\nVision analysis is disabled. Please enable 'Process Map Analysis' in the sidebar or manually describe the process flow."

  /** The text a process map contributes to the prompt. */
  function ProcessMapText(u: Upload, settings: Settings): string
    requires Supplied(u)
  {
    if settings.enableVision then ProcessImageWithVision(u.tmpPath, settings.model, u.image, u.visionReplies).text
    else "Process map file: " + u.name + VisionDisabledNote
  }

  /** `process_uploaded_file`: documents are "technical specification"s,
      images "process map"s, anything else is refused without any request;
      exactly one half of the returned pair is present. */
  function ProcessUploadedFile(u: Upload, settings: Settings): (r: UploadRun)
    requires Supplied(u)
    ensures r.testCases.None? != r.error.None?
    ensures ClassifyUpload(u.name) == UnsupportedUpload ==> r == UploadRun(None, Some("Unsupported file format"), None)
    ensures ClassifyUpload(u.name) in {PdfUpload, DocxUpload, DocUpload} ==>
      if u.extraction.Err? then r == UploadRun(None, Some(u.extraction.message), None)
      else r.request.Some? && r.request.value.documentType == "technical specification"
           && r.request.value.specText == u.extraction.value
    ensures ClassifyUpload(u.name) == ImageUpload ==>
      r.request.Some? && r.request.value.documentType == "process map"
      && r.request.value.specText == ProcessMapText(u, settings)
    ensures r.request.Some? ==> r.request.value == PlanRequest(r.request.value.specText, r.request.value.documentType,
                                                               settings.format, settings.model, settings.target)
    ensures r.testCases.Some? ==> r.request.Some?
    ensures r.request.Some? ==>
      var run := GenerateTestCases(r.request.value.specText, r.request.value.documentType,
                                   settings.format, settings.model, settings.target, u.genReplies);
      && (run.trace.outcome.Answered? ==> r.testCases == Some(run.trace.outcome.content))
      && (run.trace.outcome.Raised? ==> r.testCases.None? && r.error == Some(run.trace.outcome.error.message))
    ensures r.testCases.Some? ==> exists j :: 0 <= j < GenMaxRetries && u.genReplies[j] == Completion(r.testCases.value)
  {
    var kind := ClassifyUpload(u.name);
    if kind == UnsupportedUpload then UploadRun(None, Some("Unsupported file format"), None)
    else if kind != ImageUpload && u.extraction.Err? then UploadRun(None, Some(u.extraction.message), None)
    else
      var (text, docType) := if kind == ImageUpload then (ProcessMapText(u, settings), "process map")
                             else (u.extraction.value, "technical specification");
      var run := GenerateTestCases(text, docType, settings.format, settings.model, settings.target, u.genReplies);
      match run.trace.outcome
      case Answered(content) => UploadRun(Some(content), None, Some(run.request))
      case Raised(e) => UploadRun(None, Some(e.message), Some(run.request))
  }

  // ---------------------------------------------------------------------
  // The batch

  /** A Python dict from upload name to test cases: its keys in insertion
      order, and its contents. */
  datatype Results = Results(order: seq<string>, values: map<string, Option<string>>)

  ghost predicate WellFormedResults(r: Results) {
    && (forall i, j :: 0 <= i < j < |r.order| ==> r.order[i] != r.order[j])
    && (forall n :: n in r.order <==> n in r.values)
  }

  /** `results[name] = value`: a new key goes last, an existing key keeps its
      place and takes the new value. */
  function Assign(r: Results, name: string, value: Option<string>): (r': Results)
    requires WellFormedResults(r)
    ensures WellFormedResults(r')
    ensures r'.values == r.values[name := value]
    ensures name in r.values ==> r'.order == r.order
    ensures name !in r.values ==> r'.order == r.order + [name]
  {
    if name in r.values then Results(r.order, r.values[name := value])
    else Results(r.order + [name], r.values[name := value])
  }

  /** The batch loop keeps a result whose error is falsy: none, or empty. */
  predicate Accepted(r: UploadRun) {
    !Truthy(r.error)
  }

  /** No run after the `i`-th and before the `upto`-th under the same name
      was accepted. */
  ghost predicate LastAcceptedBefore(names: seq<string>, runs: seq<UploadRun>, i: int, upto: int)
    requires |names| == |runs| && 0 <= i && upto <= |names|
  {
    forall j :: i < j < upto && names[j] == names[i] ==> !Accepted(runs[j])
  }

  /** No later run under the same name was accepted. */
  ghost predicate LastAccepted(names: seq<string>, runs: seq<UploadRun>, i: int)
    requires |names| == |runs| && 0 <= i
  {
    LastAcceptedBefore(names, runs, i, |names|)
  }

  /** Filling the results dictionary from the runs in upload order: a name
      is a key exactly when some run under it was accepted, and it holds the
      test cases of the last accepted one. */
  method CollectResults(names: seq<string>, runs: seq<UploadRun>) returns (results: Results)
    requires |names| == |runs|
    ensures WellFormedResults(results)
    ensures forall n :: n in results.values <==> exists i :: 0 <= i < |names| && names[i] == n && Accepted(runs[i])
    ensures forall i :: 0 <= i < |names| && Accepted(runs[i]) && LastAccepted(names, runs, i) ==>
              results.values[names[i]] == runs[i].testCases
    ensures forall n :: n in results.values ==>
              exists i :: 0 <= i < |names| && Accepted(runs[i]) && results.values[n] == runs[i].testCases
  {
    results := Results([], map[]);
    var i := 0;
    while i < |names|
      invariant 0 <= i <= |names|
      invariant results == CollectedUpTo(names, runs, i)
    {
      if Accepted(runs[i]) {
        results := Assign(results, names[i], runs[i].testCases);
      }
      i := i + 1;
    }
    assert results == CollectedUpTo(names, runs, |names|);
    CollectedKeys(names, runs, |names|);
    CollectedLast(names, runs, |names|);
    CollectedFrom(names, runs, |names|);
    forall i | 0 <= i < |names| && Accepted(runs[i]) && LastAccepted(names, runs, i)
      ensures results.values[names[i]] == runs[i].testCases
    {
      assert LastAcceptedBefore(names, runs, i, |names|);
    }
  }

  /** The results after the first `i` runs: each accepted run in turn is
      assigned under its name. */
  function CollectedUpTo(names: seq<string>, runs: seq<UploadRun>, i: nat): (r: Results)
    requires |names| == |runs| && i <= |names|
    ensures WellFormedResults(r)
    decreases i
  {
    if i == 0 then Results([], map[])
    else
      var before := CollectedUpTo(names, runs, i - 1);
      if Accepted(runs[i - 1]) then Assign(before, names[i - 1], runs[i - 1].testCases) else before
  }

  /** The keys after the first `i` runs are the names of the accepted ones. */
  lemma {:induction false} CollectedKeys(names: seq<string>, runs: seq<UploadRun>, i: nat)
    requires |names| == |runs| && i <= |names|
    ensures forall n :: n in CollectedUpTo(names, runs, i).values <==>
      exists k :: 0 <= k < i && names[k] == n && Accepted(runs[k])
    decreases i
  {
    if i > 0 {
      var j := i - 1;
      CollectedKeys(names, runs, j);
      var before := CollectedUpTo(names, runs, j);
      var after := CollectedUpTo(names, runs, i);
      assert after == if Accepted(runs[j]) then Assign(before, names[j], runs[j].testCases) else before;
      CollectStepKeys(names, runs, j, before, after);
    }
  }

  /** Every accepted run among the first `i` has its name as a key. */
  lemma {:induction false} CollectedDomain(names: seq<string>, runs: seq<UploadRun>, i: nat)
    requires |names| == |runs| && i <= |names|
    ensures forall k :: 0 <= k < i && Accepted(runs[k]) ==> names[k] in CollectedUpTo(names, runs, i).values
    decreases i
  {
    if i > 0 {
      var j := i - 1;
      CollectedDomain(names, runs, j);
      var before := CollectedUpTo(names, runs, j);
      var after := CollectedUpTo(names, runs, i);
      assert after == if Accepted(runs[j]) then Assign(before, names[j], runs[j].testCases) else before;
      assert before.values.Keys <= after.values.Keys;
    }
  }

  /** After the first `i` runs, an accepted run not overtaken by a later
      accepted run of its name holds its name's value. */
  lemma {:induction false} CollectedLast(names: seq<string>, runs: seq<UploadRun>, i: nat)
    requires |names| == |runs| && i <= |names|
    ensures forall k :: 0 <= k < i && Accepted(runs[k]) && LastAcceptedBefore(names, runs, k, i) ==>
      names[k] in CollectedUpTo(names, runs, i).values
      && CollectedUpTo(names, runs, i).values[names[k]] == runs[k].testCases
    decreases i
  {
    CollectedDomain(names, runs, i);
    if i > 0 {
      var j := i - 1;
      CollectedLast(names, runs, j);
      CollectedDomain(names, runs, j);
      var before := CollectedUpTo(names, runs, j);
      var after := CollectedUpTo(names, runs, i);
      assert after == if Accepted(runs[j]) then Assign(before, names[j], runs[j].testCases) else before;
      CollectStepLast(names, runs, j, before, after);
    }
  }

  /** After the first `i` runs, every value is that of some accepted run. */
  lemma {:induction false} CollectedFrom(names: seq<string>, runs: seq<UploadRun>, i: nat)
    requires |names| == |runs| && i <= |names|
    ensures forall n :: n in CollectedUpTo(names, runs, i).values ==>
      exists k :: 0 <= k < i && Accepted(runs[k]) && CollectedUpTo(names, runs, i).values[n] == runs[k].testCases
    decreases i
  {
    if i > 0 {
      var j := i - 1;
      CollectedFrom(names, runs, j);
      var before := CollectedUpTo(names, runs, j);
      var after := CollectedUpTo(names, runs, i);
      assert after == if Accepted(runs[j]) then Assign(before, names[j], runs[j].testCases) else before;
      CollectStepFrom(names, runs, j, before, after);
    }
  }

  /** A collecting turn adds the run's name exactly when the run is
      accepted. */
  lemma CollectStepKeys(names: seq<string>, runs: seq<UploadRun>, i: nat, before: Results, after: Results)
    requires |names| == |runs| && i < |names| && WellFormedResults(before)
    requires forall n :: n in before.values <==> exists k :: 0 <= k < i && names[k] == n && Accepted(runs[k])
    requires after == if Accepted(runs[i]) then Assign(before, names[i], runs[i].testCases) else before
    ensures forall n :: n in after.values <==> exists k :: 0 <= k < i + 1 && names[k] == n && Accepted(runs[k])
  {
    forall n
      ensures n in after.values <==> exists k :: 0 <= k < i + 1 && names[k] == n && Accepted(runs[k])
    {
      if n == names[i] && Accepted(runs[i]) {
        assert n in after.values;
      } else if n in after.values {
        assert n in before.values;
      }
    }
  }

  /** After a collecting turn, every accepted run not overtaken by a later
      accepted run of the same name holds its name's value. */
  lemma CollectStepLast(names: seq<string>, runs: seq<UploadRun>, i: nat, before: Results, after: Results)
    requires |names| == |runs| && i < |names| && WellFormedResults(before)
    requires forall k :: 0 <= k < i && Accepted(runs[k]) ==> names[k] in before.values
    requires forall k :: 0 <= k < i && Accepted(runs[k]) && LastAcceptedBefore(names, runs, k, i) ==>
               before.values[names[k]] == runs[k].testCases
    requires after == if Accepted(runs[i]) then Assign(before, names[i], runs[i].testCases) else before
    ensures forall k :: 0 <= k < i + 1 && Accepted(runs[k]) && LastAcceptedBefore(names, runs, k, i + 1) ==>
              after.values[names[k]] == runs[k].testCases
  {
    forall k | 0 <= k < i + 1 && Accepted(runs[k]) && LastAcceptedBefore(names, runs, k, i + 1)
      ensures after.values[names[k]] == runs[k].testCases
    {
      if k < i {
        assert LastAcceptedBefore(names, runs, k, i);
        assert before.values[names[k]] == runs[k].testCases;
        if Accepted(runs[i]) {
          assert names[i] != names[k];
          assert after.values == before.values[names[i] := runs[i].testCases];
        }
      } else {
        assert after.values == before.values[names[i] := runs[i].testCases];
      }
    }
  }

  /** After a collecting turn, every stored value is that of some accepted
      run. */
  lemma CollectStepFrom(names: seq<string>, runs: seq<UploadRun>, i: nat, before: Results, after: Results)
    requires |names| == |runs| && i < |names| && WellFormedResults(before)
    requires forall n :: n in before.values ==>
               exists k :: 0 <= k < i && Accepted(runs[k]) && before.values[n] == runs[k].testCases
    requires after == if Accepted(runs[i]) then Assign(before, names[i], runs[i].testCases) else before
    ensures forall n :: n in after.values ==>
              exists k :: 0 <= k < i + 1 && Accepted(runs[k]) && after.values[n] == runs[k].testCases
  {
    forall n | n in after.values
      ensures exists k :: 0 <= k < i + 1 && Accepted(runs[k]) && after.values[n] == runs[k].testCases
    {
      if Accepted(runs[i]) && n == names[i] {
        assert after.values[n] == runs[i].testCases;
      } else {
        var k :| 0 <= k < i && Accepted(runs[k]) && before.values[n] == runs[k].testCases;
        assert after.values[n] == runs[k].testCases;
      }
    }
  }

  /** The "Generate Test Cases" loop: every upload is processed, with a
      2-second sleep before every file but the first, and the results are
      collected as `CollectResults` describes. */
  method ProcessBatch(uploads: seq<Upload>, settings: Settings)
    returns (runs: seq<UploadRun>, results: Results, sleeps: seq<nat>)
    requires forall k :: 0 <= k < |uploads| ==> Supplied(uploads[k])
    ensures |runs| == |uploads|
    ensures forall k :: 0 <= k < |uploads| ==> runs[k] == ProcessUploadedFile(uploads[k], settings)
    ensures |sleeps| == if |uploads| == 0 then 0 else |uploads| - 1
    ensures forall k :: 0 <= k < |sleeps| ==> sleeps[k] == 2
    ensures WellFormedResults(results)
    ensures forall n :: n in results.values <==>
              exists i :: 0 <= i < |uploads| && uploads[i].name == n && Accepted(runs[i])
    ensures forall i :: 0 <= i < |uploads| && Accepted(runs[i]) && LastAccepted(Names(uploads), runs, i) ==>
              results.values[uploads[i].name] == runs[i].testCases
    ensures (forall i :: 0 <= i < |uploads| ==> runs[i].error != Some("")) ==>
              forall n :: n in results.values ==> results.values[n].Some?
  {
    runs, sleeps := RunUploads(uploads, settings);
    results := CollectResults(Names(uploads), runs);
  }

  /** The processing part of the loop: one run per upload, in order, and a
      2-second sleep between consecutive uploads. */
  method RunUploads(uploads: seq<Upload>, settings: Settings) returns (runs: seq<UploadRun>, sleeps: seq<nat>)
    requires forall k :: 0 <= k < |uploads| ==> Supplied(uploads[k])
    ensures |runs| == |uploads|
    ensures forall k :: 0 <= k < |uploads| ==> runs[k] == ProcessUploadedFile(uploads[k], settings)
    ensures |sleeps| == if |uploads| == 0 then 0 else |uploads| - 1
    ensures forall k :: 0 <= k < |sleeps| ==> sleeps[k] == 2
  {
    runs := [];
    sleeps := [];
    var i := 0;
    while i < |uploads|
      invariant 0 <= i <= |uploads|
      invariant |runs| == i
      invariant forall k :: 0 <= k < i ==> runs[k] == ProcessUploadedFile(uploads[k], settings)
      invariant |sleeps| == if i == 0 then 0 else i - 1
      invariant forall k :: 0 <= k < |sleeps| ==> sleeps[k] == 2
    {
      if i > 0 {
        sleeps := sleeps + [2];
      }
      runs := runs + [ProcessUploadedFile(uploads[i], settings)];
      i := i + 1;
    }
  }

  function Names(uploads: seq<Upload>): (names: seq<string>)
    ensures |names| == |uploads|
    ensures forall i :: 0 <= i < |uploads| ==> names[i] == uploads[i].name
  {
    seq(|uploads|, i requires 0 <= i < |uploads| => uploads[i].name)
  }
}

=== FILE: automation.dfy ===
/** The automation-code generator page: the language tables, reading
    reference code files, the page-object analysis of those files, which
    sections the system and user prompts hold and in what order, the
    document dispatch, and the clean-up of fenced code in the answer.

    Prompt wording is not reproduced: a prompt is the sequence of its
    sections. The regular expressions that list classes and methods are
    parameters; the chat-completion call is a given result. */
module Automation {
  import opened Basics
  import opened Text
  import opened Paths
  import App

  // ---------------------------------------------------------------------
  // Language tables

  const KnownLanguages: set<string> := {"JavaScript", "TypeScript", "Python"}

  /** `get_file_extension`: the download's extension. */
  function FileExtensionFor(language: string): (ext: string)
    ensures language !in KnownLanguages <==> ext == "txt"
    ensures |ext| > 0 && '.' !in ext
  {
    if language == "JavaScript" then "js"
    else if language == "TypeScript" then "ts"
    else if language == "Python" then "py"
    else "txt"
  }

  /** `get_language_for_code_block`: the highlighter's language name. */
  function CodeBlockLanguage(language: string): (name: string)
    ensures language !in KnownLanguages <==> name == "text"
    ensures language in KnownLanguages ==> name == Lower(language)
  {
    if language == "JavaScript" then "javascript"
    else if language == "TypeScript" then "typescript"
    else if language == "Python" then "python"
    else "text"
  }

  /** The file type `extract_code_from_file` reports for an extension. */
  function FileTypeFor(ext: string): (fileType: string)
    ensures fileType in KnownLanguages || fileType == "Unknown"
    ensures fileType == "JavaScript" <==> ext == "js"
    ensures fileType == "TypeScript" <==> ext == "ts"
    ensures fileType == "Python" <==> ext == "py"
    ensures fileType == "Unknown" <==> ext !in {"js", "ts", "py"}
  {
    if ext == "js" then "JavaScript"
    else if ext == "ts" then "TypeScript"
    else if ext == "py" then "Python"
    else "Unknown"
  }

  /** The two tables fall back to their defaults for the same languages,
      and the extension a language's code is downloaded with is read back as
      that language; every other language is read back as "Unknown". */
  lemma LanguageTablesAgree(language: string)
    ensures FileExtensionFor(language) == "txt" <==> CodeBlockLanguage(language) == "text"
    ensures language in KnownLanguages ==> FileTypeFor(FileExtensionFor(language)) == language
    ensures language !in KnownLanguages ==> FileTypeFor(FileExtensionFor(language)) == "Unknown"
  {
  }

  // ---------------------------------------------------------------------
  // Reading a reference code file

  /** What decoding the upload as UTF-8 gives. */
  datatype Decoding = Decoded(text: string) | NotUtf8 | ReadFailed(message: string)

  /** A reference file as `extract_code_from_file` describes it. */
  datatype CodeFile = CodeFile(content: string, filename: string, fileType: string, extension: string)

  /** `extract_code_from_file`: the extension is the lower-cased text after
      the name's last dot (the whole name when it has none), and exactly one
      half of the returned pair is present. */
  function ExtractCodeFromFile(name: string, decoding: Decoding): (r: (Option<CodeFile>, Option<string>))
    ensures r.0.None? != r.1.None?
    ensures decoding.Decoded? <==> r.0.Some?
    ensures r.0.Some? ==> r.0.value.content == decoding.text && r.0.value.filename == name
    ensures r.0.Some? ==> r.0.value.extension == Lower(name[LastIndexOf(name, '.') + 1..])
    ensures r.0.Some? ==> r.0.value.fileType == FileTypeFor(r.0.value.extension)
    ensures decoding.NotUtf8? ==>
      r.1 == Some("Unable to read " + name + ". File might be binary or use unsupported encoding.")
    ensures decoding.ReadFailed? ==> r.1 == Some("Error reading file " + name + ": " + decoding.message)
  {
    match decoding
    case NotUtf8 => (None, Some("Unable to read " + name + ". File might be binary or use unsupported encoding."))
    case ReadFailed(msg) => (None, Some("Error reading file " + name + ": " + msg))
    case Decoded(text) =>
      LastSegmentAfterLastDot(name);
      var ext := Lower(LastSegment(name));
      (Some(CodeFile(text, name, FileTypeFor(ext), ext)), None)
  }

  /** The last segment of a name ending in a dot and a dot-free extension is
      that extension. */
  lemma LastSegmentOfEnding(name: string, ext: string)
    requires '.' !in ext
    requires EndsWith(name, "." + ext)
    ensures LastSegment(name) == ext
  {
    var k := |name| - |ext| - 1;
    assert name[k..] == "." + ext;
    assert name[k] == '.';
    forall j | k < j < |name|
      ensures name[j] != '.'
    {
      assert name[j] == ext[j - k - 1];
    }
    LastIndexOfUnique(name, '.', k);
    LastSegmentAfterLastDot(name);
    assert name[k + 1..] == name[k..][1..];
  }

  /** Code saved under the extension the page gives its language is
      recognised as that language when uploaded again as a reference. */
  lemma DownloadedCodeIsRecognised(stem: string, language: string, text: string)
    requires language in KnownLanguages
    ensures var r := ExtractCodeFromFile(stem + "." + FileExtensionFor(language), Decoded(text));
      r.0.Some? && r.0.value.fileType == language
  {
    var ext := FileExtensionFor(language);
    var name := stem + "." + ext;
    assert name[|name| - |"." + ext|..] == "." + ext;
    LastSegmentOfEnding(name, ext);
    LastSegmentAfterLastDot(name);
    ExtensionIsLower(language);
  }

  lemma ExtensionIsLower(language: string)
    ensures Lower(FileExtensionFor(language)) == FileExtensionFor(language)
  {
    var ext := FileExtensionFor(language);
    assert forall i :: 0 <= i < |ext| ==> LowerChar(ext[i]) == ext[i];
  }

  // ---------------------------------------------------------------------
  // Analysing reference code

  /** The part of the analysis that is modelled: the page-object flag and
      the class and method names, which come from regular expressions here
      taken as parameters. */
  datatype ReferenceSummary = ReferenceSummary(hasPom: bool, classes: seq<string>, methods: seq<string>)

  /** A file whose lower-cased content mentions "class" and "page" or
      "pom" signals the page-object model. */
  predicate LooksLikePom(content: string) {
    var lowered := Lower(content);
    Contains(lowered, "class") && (Contains(lowered, "page") || Contains(lowered, "pom"))
  }

  /** One file's part of the reference context. */
  function ReferenceBlock(f: CodeFile): (block: string)
    ensures |block| > 0
  {
    "\n\n--- " + f.filename + " ---\n" + f.content
  }

  /** What one file contributes to the summary. */
  function FileSummary(f: CodeFile, classesOf: string -> seq<string>, methodsOf: string -> seq<string>)
    : ReferenceSummary
  {
    ReferenceSummary(LooksLikePom(f.content), classesOf(f.content), methodsOf(f.content))
  }

  /** Joining the summaries of two batches of files. */
  function Merge(a: ReferenceSummary, b: ReferenceSummary): ReferenceSummary {
    ReferenceSummary(a.hasPom || b.hasPom, a.classes + b.classes, a.methods + b.methods)
  }

  const NoSummary := ReferenceSummary(false, [], [])

  /** The summary built file by file. */
  function Summarize(files: seq<CodeFile>, classesOf: string -> seq<string>, methodsOf: string -> seq<string>)
    : ReferenceSummary
    decreases |files|
  {
    if |files| == 0 then NoSummary
    else Merge(Summarize(files[..|files| - 1], classesOf, methodsOf),
               FileSummary(files[|files| - 1], classesOf, methodsOf))
  }

  /** Each file's block of the reference context, in order. */
  function ReferenceBlocks(files: seq<CodeFile>): (blocks: seq<string>)
    ensures |blocks| == |files|
    ensures forall i :: 0 <= i < |files| ==> blocks[i] == ReferenceBlock(files[i])
  {
    seq(|files|, i requires 0 <= i < |files| => ReferenceBlock(files[i]))
  }

  lemma ReferenceContextEmpty(files: seq<CodeFile>)
    ensures |Concat(ReferenceBlocks(files))| == 0 <==> |files| == 0
  {
    var blocks := ReferenceBlocks(files);
    if |files| > 0 {
      assert Concat(blocks) == Concat(blocks[..|blocks| - 1]) + ReferenceBlock(files[|files| - 1]);
    }
  }

  /** `analyze_reference_code`: the summary and the reference context, every
      file's block appended in turn; the context is empty only without
      files. */
  function AnalyzeReferenceCode(files: seq<CodeFile>, classesOf: string -> seq<string>,
                                methodsOf: string -> seq<string>): (r: (ReferenceSummary, string))
    ensures |r.1| == 0 <==> |files| == 0
  {
    var blocks := ReferenceBlocks(files);
    ReferenceContextEmpty(files);
    (Summarize(files, classesOf, methodsOf), Concat(blocks))
  }

  /** One file's analysis: the page-object test and the class and method
      lists of its content, and a context that is its name between dashes
      followed by its content. With `AnalyzeAppend` this pins down the
      analysis of any list of files. */
  lemma AnalyzeSingle(f: CodeFile, classesOf: string -> seq<string>, methodsOf: string -> seq<string>)
    ensures var r := AnalyzeReferenceCode([f], classesOf, methodsOf);
      && r.0 == ReferenceSummary(LooksLikePom(f.content), classesOf(f.content), methodsOf(f.content))
      && r.1 == "\n\n--- " + f.filename + " ---\n" + f.content
  {
    assert [f][..0] == [];
    assert Summarize([f], classesOf, methodsOf) == Merge(NoSummary, FileSummary(f, classesOf, methodsOf));
    assert [] + classesOf(f.content) == classesOf(f.content);
    assert [] + methodsOf(f.content) == methodsOf(f.content);
    assert ReferenceBlocks([f]) == [ReferenceBlock(f)];
    ConcatSingle(ReferenceBlock(f));
  }

  /** The page-object flag is set exactly when some file looks like a page
      object. */
  lemma {:induction false} AnalyzeDetectsPom(files: seq<CodeFile>, classesOf: string -> seq<string>,
                                             methodsOf: string -> seq<string>)
    ensures AnalyzeReferenceCode(files, classesOf, methodsOf).0.hasPom
        <==> exists i :: 0 <= i < |files| && LooksLikePom(files[i].content)
    decreases |files|
  {
    if |files| > 0 {
      var prefix := files[..|files| - 1];
      AnalyzeDetectsPom(prefix, classesOf, methodsOf);
      assert forall i :: 0 <= i < |prefix| ==> prefix[i] == files[i];
      if LooksLikePom(files[|files| - 1].content) {
        assert exists i :: 0 <= i < |files| && LooksLikePom(files[i].content);
      }
    }
  }

  lemma MergeAssociates(x: ReferenceSummary, y: ReferenceSummary, z: ReferenceSummary)
    ensures Merge(Merge(x, y), z) == Merge(x, Merge(y, z))
  {
    assert (x.classes + y.classes) + z.classes == x.classes + (y.classes + z.classes);
    assert (x.methods + y.methods) + z.methods == x.methods + (y.methods + z.methods);
  }

  /** The summary splits at any position into the summaries of the files
      before it and of those from it on. */
  lemma {:induction false} SummarizeSplit(files: seq<CodeFile>, k: nat, classesOf: string -> seq<string>,
                                          methodsOf: string -> seq<string>)
    requires k <= |files|
    ensures Summarize(files, classesOf, methodsOf)
         == Merge(Summarize(files[..k], classesOf, methodsOf), Summarize(files[k..], classesOf, methodsOf))
    decreases |files|
  {
    var n := |files|;
    if k == n {
      assert files[..k] == files;
      assert files[k..] == [];
      var x := Summarize(files, classesOf, methodsOf);
      assert x.classes + [] == x.classes && x.methods + [] == x.methods;
    } else {
      var init := files[..n - 1];
      var rest := files[k..];
      SummarizeSplit(init, k, classesOf, methodsOf);
      assert init[..k] == files[..k];
      assert rest[..|rest| - 1] == init[k..];
      assert rest[|rest| - 1] == files[n - 1];
      MergeAssociates(Summarize(files[..k], classesOf, methodsOf), Summarize(init[k..], classesOf, methodsOf),
                      FileSummary(files[n - 1], classesOf, methodsOf));
    }
  }

  /** Joining the analyses of two batches of files. */
  function Combine(a: (ReferenceSummary, string), b: (ReferenceSummary, string)): (ReferenceSummary, string) {
    (Merge(a.0, b.0), a.1 + b.1)
  }

  /** The analysis goes file by file: analysing two batches together is
      analysing each and joining the results in order. */
  lemma AnalyzeAppend(a: seq<CodeFile>, b: seq<CodeFile>, classesOf: string -> seq<string>,
                      methodsOf: string -> seq<string>)
    ensures AnalyzeReferenceCode(a + b, classesOf, methodsOf)
         == Combine(AnalyzeReferenceCode(a, classesOf, methodsOf), AnalyzeReferenceCode(b, classesOf, methodsOf))
  {
    SummarizeSplit(a + b, |a|, classesOf, methodsOf);
    assert (a + b)[..|a|] == a;
    assert (a + b)[|a|..] == b;
    assert ReferenceBlocks(a + b) == ReferenceBlocks(a) + ReferenceBlocks(b);
    ConcatAppend(ReferenceBlocks(a), ReferenceBlocks(b));
  }

  /** Every file's block appears in the reference context. */
  lemma ReferenceContextHoldsEach(files: seq<CodeFile>, i: nat, classesOf: string -> seq<string>,
                                  methodsOf: string -> seq<string>)
    requires i < |files|
    ensures Contains(AnalyzeReferenceCode(files, classesOf, methodsOf).1, ReferenceBlock(files[i]))
  {
    ConcatHoldsEach(ReferenceBlocks(files), i);
  }

  // ---------------------------------------------------------------------
  // The system prompt

  datatype SystemSection =
    | Expertise(language: string, framework: string, selectorStrategy: string, pageObject: bool)
    | FrameworkPractices(framework: string)
    | PomArchitecture
    | SelectorHeading(strategy: string)
    | SelectorGuidance(strategy: string)
    | ReferenceCode(context: string)

  /** Where each kind of section sits in the prompt. */
  function SystemRank(s: SystemSection): nat {
    match s
    case Expertise(_, _, _, _) => 0
    case FrameworkPractices(_) => 1
    case PomArchitecture => 2
    case SelectorHeading(_) => 3
    case SelectorGuidance(_) => 4
    case ReferenceCode(_) => 5
  }

  const KnownFrameworks: set<string> := {"Playwright", "Selenium", "Cypress", "Pytest"}
  const KnownSelectorStrategies: set<string> := {"data-testid", "CSS", "XPath"}

  /** Sections come in rank order, so each kind appears at most once. */
  predicate Ordered(sections: seq<SystemSection>) {
    forall i, j :: 0 <= i < j < |sections| ==> SystemRank(sections[i]) < SystemRank(sections[j])
  }

  /** `get_automation_system_prompt`: the expertise block first; best
      practices for a known framework; the page-object block when asked
      for; the selector heading always, with guidance for a known strategy;
      and the reference code when there is any. Which sections appear is
      stated by the lemmas after it. */
  function SystemPrompt(language: string, framework: string, selectorStrategy: string, pageObject: bool,
                        referenceContext: Option<string>): (sections: seq<SystemSection>)
    ensures Ordered(sections)
    ensures |sections| > 0 && sections[0] == Expertise(language, framework, selectorStrategy, pageObject)
    ensures SelectorHeading(selectorStrategy) in sections
  {
    var s0 := [Expertise(language, framework, selectorStrategy, pageObject)];
    var s1 := AppendRanked(s0, 1, Optionally(framework in KnownFrameworks, FrameworkPractices(framework)));
    var s2 := AppendRanked(s1, 2, Optionally(pageObject, PomArchitecture));
    var s3 := AppendRanked(s2, 3, [SelectorHeading(selectorStrategy)]);
    var s4 := AppendRanked(s3, 4, Optionally(selectorStrategy in KnownSelectorStrategies, SelectorGuidance(selectorStrategy)));
    var reference := if Truthy(referenceContext) then [ReferenceCode(referenceContext.value)] else [];
    AppendRanked(s4, 5, reference)
  }

  /** Best practices appear exactly for the four known frameworks, and
      they are the chosen framework's. */
  lemma SystemPromptFramework(language: string, framework: string, selectorStrategy: string, pageObject: bool,
                              referenceContext: Option<string>)
    ensures var sections := SystemPrompt(language, framework, selectorStrategy, pageObject, referenceContext);
      && ((exists s :: s in sections && s.FrameworkPractices?) <==> framework in KnownFrameworks)
      && (forall s :: s in sections && s.FrameworkPractices? ==> s == FrameworkPractices(framework))
  {
  }

  /** The page-object block appears exactly when it is asked for. */
  lemma SystemPromptPom(language: string, framework: string, selectorStrategy: string, pageObject: bool,
                        referenceContext: Option<string>)
    ensures var sections := SystemPrompt(language, framework, selectorStrategy, pageObject, referenceContext);
      (exists s :: s in sections && s.PomArchitecture?) <==> pageObject
  {
    var sections := SystemPrompt(language, framework, selectorStrategy, pageObject, referenceContext);
    if pageObject {
      assert PomArchitecture in sections;
    }
  }

  /** Selector guidance appears exactly for the three known strategies, and
      it is the chosen strategy's. */
  lemma SystemPromptSelector(language: string, framework: string, selectorStrategy: string, pageObject: bool,
                             referenceContext: Option<string>)
    ensures var sections := SystemPrompt(language, framework, selectorStrategy, pageObject, referenceContext);
      && ((exists s :: s in sections && s.SelectorGuidance?) <==> selectorStrategy in KnownSelectorStrategies)
      && (forall s :: s in sections && s.SelectorGuidance? ==> s == SelectorGuidance(selectorStrategy))
  {
  }

  /** The reference code appears exactly when the context is non-empty, and
      it is that context. */
  lemma SystemPromptReference(language: string, framework: string, selectorStrategy: string, pageObject: bool,
                              referenceContext: Option<string>)
    ensures var sections := SystemPrompt(language, framework, selectorStrategy, pageObject, referenceContext);
      && ((exists s :: s in sections && s.ReferenceCode?) <==> Truthy(referenceContext))
      && (forall s :: s in sections && s.ReferenceCode? ==> s == ReferenceCode(referenceContext.value))
  {
    var sections := SystemPrompt(language, framework, selectorStrategy, pageObject, referenceContext);
    if Truthy(referenceContext) {
      assert ReferenceCode(referenceContext.value) in sections;
    }
  }

  /** The sections a condition switches on or off. */
  function Optionally<T>(present: bool, section: T): (r: seq<T>)
    ensures section in r <==> present
    ensures forall s :: s in r ==> s == section
  {
    if present then [section] else []
  }

  /** Every section ranks below `rank`. */
  predicate RankedBelow(sections: seq<SystemSection>, rank: nat) {
    forall s :: s in sections ==> SystemRank(s) < rank
  }

  /** Appending sections of the next rank keeps the prompt in order. */
  function AppendRanked(sections: seq<SystemSection>, rank: nat, next: seq<SystemSection>): (r: seq<SystemSection>)
    requires Ordered(sections) && RankedBelow(sections, rank) && |sections| > 0
    requires |next| <= 1 && forall s :: s in next ==> SystemRank(s) == rank
    ensures Ordered(r) && RankedBelow(r, rank + 1) && |r| > 0 && r[0] == sections[0]
    ensures forall s :: s in r <==> s in sections || s in next
    ensures forall s :: s in r ==> (SystemRank(s) == rank <==> s in next)
  {
    var r := sections + next;
    assert forall i :: 0 <= i < |r| ==> r[i] in sections || r[i] in next;
    r
  }

  // ---------------------------------------------------------------------
  // The user prompt

  datatype UserSection =
    | Scenario(description: string)
    | ReferenceAnalysis(classes: seq<string>, methods: seq<string>)
    | AdditionalRequirements(context: string)
    | Deliverables

  function UserRank(s: UserSection): nat {
    match s
    case Scenario(_) => 0
    case ReferenceAnalysis(_, _) => 1
    case AdditionalRequirements(_) => 2
    case Deliverables => 3
  }

  function Min(a: nat, b: nat): nat {
    if a <= b then a else b
  }

  /** Python's `items[:n]`: the first `n` items, or all when fewer. */
  function Take<T>(items: seq<T>, n: nat): (r: seq<T>)
    ensures r <= items && |r| == Min(n, |items|)
  {
    if |items| <= n then items else items[..n]
  }

  /** `get_automation_user_prompt`: the scenario first and the deliverables
      last; in between the reference analysis, listing at most five classes
      and ten methods, only when a page-object summary was given, then the
      additional requirements only when there are any. */
  function UserPrompt(description: string, context: string, summary: Option<ReferenceSummary>)
    : (sections: seq<UserSection>)
    ensures forall i, j :: 0 <= i < j < |sections| ==> UserRank(sections[i]) < UserRank(sections[j])
    ensures |sections| >= 2 && sections[0] == Scenario(description) && sections[|sections| - 1] == Deliverables
    ensures (exists s :: s in sections && s.ReferenceAnalysis?) <==> summary.Some? && summary.value.hasPom
    ensures forall s :: s in sections && s.ReferenceAnalysis? ==>
      && summary.Some?
      && s.classes <= summary.value.classes && |s.classes| == Min(5, |summary.value.classes|)
      && s.methods <= summary.value.methods && |s.methods| == Min(10, |summary.value.methods|)
    ensures (exists s :: s in sections && s.AdditionalRequirements?) <==> |context| > 0
    ensures forall s :: s in sections && s.AdditionalRequirements? ==> s.context == context
  {
    var analysis := if summary.Some? && summary.value.hasPom
                    then [ReferenceAnalysis(Take(summary.value.classes, 5), Take(summary.value.methods, 10))]
                    else [];
    var requirements := if |context| > 0 then [AdditionalRequirements(context)] else [];
    var sections := [Scenario(description)] + analysis + requirements + [Deliverables];
    assert summary.Some? && summary.value.hasPom ==> analysis[0] in sections;
    assert |context| > 0 ==> AdditionalRequirements(context) in sections;
    sections
  }

  // ---------------------------------------------------------------------
  // Generating code

  /** What `generate_automation_code` sends: both prompts, whether the
      screenshot is attached, the model and the token budget. */
  datatype AutomationRequest = AutomationRequest(
    system: seq<SystemSection>,
    user: seq<UserSection>,
    withImage: bool,
    model: string,
    maxTokens: nat)

  /** The request `generate_automation_code` builds: reference files, when
      there are any, are analysed, and their context reaches the system
      prompt and their summary the user prompt; the screenshot is attached
      when its encoding is non-empty. */
  function PlanAutomationRequest(description: string, language: string, framework: string,
                                 selectorStrategy: string, pageObject: bool, context: string,
                                 image: Option<string>, referenceFiles: seq<CodeFile>,
                                 classesOf: string -> seq<string>, methodsOf: string -> seq<string>,
                                 model: string): (request: AutomationRequest)
    ensures request.withImage <==> Truthy(image)
    ensures request.model == model && request.maxTokens == 4000
    ensures (exists s :: s in request.system && s.ReferenceCode?) <==> |referenceFiles| > 0
    ensures forall s :: s in request.system && s.ReferenceCode? ==>
              s.context == AnalyzeReferenceCode(referenceFiles, classesOf, methodsOf).1
    ensures (exists s :: s in request.user && s.ReferenceAnalysis?) <==>
              exists k :: 0 <= k < |referenceFiles| && LooksLikePom(referenceFiles[k].content)
    ensures request.system == SystemPrompt(language, framework, selectorStrategy, pageObject,
              if |referenceFiles| == 0 then None else Some(AnalyzeReferenceCode(referenceFiles, classesOf, methodsOf).1))
    ensures request.user == UserPrompt(description, context,
              if |referenceFiles| == 0 then None else Some(AnalyzeReferenceCode(referenceFiles, classesOf, methodsOf).0))
    ensures |request.system| > 0 && request.system[0] == Expertise(language, framework, selectorStrategy, pageObject)
    ensures (exists s :: s in request.system && s.FrameworkPractices?) <==> framework in KnownFrameworks
    ensures (exists s :: s in request.system && s.PomArchitecture?) <==> pageObject
    ensures (exists s :: s in request.system && s.SelectorGuidance?) <==> selectorStrategy in KnownSelectorStrategies
    ensures SelectorHeading(selectorStrategy) in request.system
    ensures |request.user| > 0 && request.user[0] == Scenario(description)
    ensures (exists s :: s in request.user && s.AdditionalRequirements?) <==> |context| > 0
    ensures forall s :: s in request.user && s.AdditionalRequirements? ==> s.context == context
  {
    var reference := if |referenceFiles| == 0 then None else Some(AnalyzeReferenceCode(referenceFiles, classesOf, methodsOf).1);
    SystemPromptFramework(language, framework, selectorStrategy, pageObject, reference);
    SystemPromptPom(language, framework, selectorStrategy, pageObject, reference);
    SystemPromptSelector(language, framework, selectorStrategy, pageObject, reference);
    if |referenceFiles| == 0 then
      SystemPromptReference(language, framework, selectorStrategy, pageObject, None);
      AutomationRequest(SystemPrompt(language, framework, selectorStrategy, pageObject, None),
                        UserPrompt(description, context, None), Truthy(image), model, 4000)
    else
      var analysis := AnalyzeReferenceCode(referenceFiles, classesOf, methodsOf);
      AnalyzeDetectsPom(referenceFiles, classesOf, methodsOf);
      SystemPromptReference(language, framework, selectorStrategy, pageObject, Some(analysis.1));
      AutomationRequest(SystemPrompt(language, framework, selectorStrategy, pageObject, Some(analysis.1)),
                        UserPrompt(description, context, Some(analysis.0)), Truthy(image), model, 4000)
  }

  datatype AutomationRun = AutomationRun(code: Option<string>, error: Option<string>, request: AutomationRequest)

  /** `generate_automation_code`: the answer, or the error's message, and
      never both. */
  function GenerateAutomationCode(request: AutomationRequest, reply: Result<string>): (run: AutomationRun)
    ensures run.code.None? != run.error.None?
    ensures run.code.Some? <==> reply.Ok?
    ensures run.code.Some? ==> run.code.value == reply.value
    ensures run.error.Some? ==> run.error.value == reply.message
    ensures run.request == request
  {
    match reply
    case Ok(code) => AutomationRun(Some(code), None, request)
    case Err(msg) => AutomationRun(None, Some(msg), request)
  }

  // ---------------------------------------------------------------------
  // The requirements document

  datatype DocumentKind = PdfDocument | DocxDocument | DocDocument

  /** The kind `process_uploaded_document` reads, from the lower-cased text
      after the name's last dot. */
  function DocumentKindOf(name: string): (kind: Option<DocumentKind>)
    ensures kind == Some(PdfDocument) <==> LastSegment(Lower(name)) == "pdf"
    ensures kind == Some(DocxDocument) <==> LastSegment(Lower(name)) == "docx"
    ensures kind == Some(DocDocument) <==> LastSegment(Lower(name)) == "doc"
  {
    var ext := LastSegment(Lower(name));
    if ext == "pdf" then Some(PdfDocument)
    else if ext == "docx" then Some(DocxDocument)
    else if ext == "doc" then Some(DocDocument)
    else None
  }

  /** `process_uploaded_document`: a PDF or Word document yields its text
      or the extraction's error; anything else is refused. */
  function ProcessUploadedDocument(name: string, extraction: Result<string>): (r: (Option<string>, Option<string>))
    ensures r.0.None? != r.1.None?
    ensures DocumentKindOf(name).None? ==> r == (None, Some("Unsupported document format"))
    ensures DocumentKindOf(name).Some? ==> r.0.Some? == extraction.Ok?
    ensures DocumentKindOf(name).Some? && extraction.Ok? ==> r.0 == Some(extraction.value)
    ensures DocumentKindOf(name).Some? && extraction.Err? ==> r.1 == Some(extraction.message)
  {
    if DocumentKindOf(name).None? then (None, Some("Unsupported document format"))
    else
      match extraction
      case Ok(text) => (Some(text), None)
      case Err(msg) => (None, Some(msg))
  }

  /** A name the test-case uploader reads as a document is read as the same
      kind of document here. */
  lemma DocumentDispatchAgrees(name: string)
    ensures App.ClassifyUpload(name) == App.PdfUpload ==> DocumentKindOf(name) == Some(PdfDocument)
    ensures App.ClassifyUpload(name) == App.DocxUpload ==> DocumentKindOf(name) == Some(DocxDocument)
    ensures App.ClassifyUpload(name) == App.DocUpload ==> DocumentKindOf(name) == Some(DocDocument)
  {
    var kind := App.ClassifyUpload(name);
    if kind == App.PdfUpload {
      EndingIsKind(name, ".pdf");
    } else if kind == App.DocxUpload {
      EndingIsKind(name, ".docx");
    } else if kind == App.DocUpload {
      EndingIsKind(name, ".doc");
    }
  }

  /** A name whose lower-cased form ends in one of the document endings is
      read as that kind of document. */
  lemma EndingIsKind(name: string, ending: string)
    requires ending == ".pdf" || ending == ".docx" || ending == ".doc"
    requires EndsWith(Lower(name), ending)
    ensures ending == ".pdf" ==> DocumentKindOf(name) == Some(PdfDocument)
    ensures ending == ".docx" ==> DocumentKindOf(name) == Some(DocxDocument)
    ensures ending == ".doc" ==> DocumentKindOf(name) == Some(DocDocument)
  {
    var ext := ending[1..];
    assert ending == "." + ext;
    assert '.' !in ext;
    LastSegmentOfEnding(Lower(name), ext);
  }

  /** The converse fails: a bare name such as "pdf" has no dot, so its last
      segment is the whole name and it is read as a PDF here, while the
      test-case uploader refuses it. */
  lemma BareNameIsReadAsDocument()
    ensures DocumentKindOf("pdf") == Some(PdfDocument)
    ensures App.ClassifyUpload("pdf") == App.UnsupportedUpload
  {
    assert Lower("pdf") == "pdf";
    SplitWithoutSep("pdf", '.');
  }

  // ---------------------------------------------------------------------
  // Cleaning fenced code

  const Fence: string := "```"

  /** The characters `\w` matches among ASCII ones. */
  predicate IsWordChar(c: char) {
    ('a' <= c <= 'z') || ('A' <= c <= 'Z') || ('0' <= c <= '9') || c == '_'
  }

  /** The length of the longest run of word characters starting at `p`. */
  function WordRun(s: string, p: nat): (n: nat)
    requires p <= |s|
    ensures p + n <= |s|
    ensures forall k :: p <= k < p + n ==> IsWordChar(s[k])
    ensures p + n == |s| || !IsWordChar(s[p + n])
    decreases |s| - p
  {
    if p < |s| && IsWordChar(s[p]) then 1 + WordRun(s, p + 1) else 0
  }

  /** The first occurrence of `sub` at or after `from`. */
  function FindFrom(s: string, sub: string, from: nat): (k: Option<nat>)
    requires from <= |s|
    ensures k.Some? ==> from <= k.value && OccursAt(s, sub, k.value)
    decreases |s| - from
  {
    if OccursAt(s, sub, from) then Some(from)
    else if from == |s| then None
    else FindFrom(s, sub, from + 1)
  }

  /** The occurrence found is the first one: none starts earlier, and when
      none is found, none exists. */
  lemma {:induction false} FindFromSkips(s: string, sub: string, from: nat)
    requires from <= |s|
    ensures FindFrom(s, sub, from).Some? ==>
      forall j :: from <= j < FindFrom(s, sub, from).value ==> !OccursAt(s, sub, j)
    ensures FindFrom(s, sub, from).None? ==> forall j :: from <= j ==> !OccursAt(s, sub, j)
    decreases |s| - from
  {
    if !OccursAt(s, sub, from) && from < |s| {
      FindFromSkips(s, sub, from + 1);
    }
  }

  /** One match of the fence pattern at `p`: three backticks, an optional
      language word, a newline, and the shortest text up to the next three
      backticks. It gives the bounds of the enclosed text; the match ends
      three characters after them. */
  function MatchFenceAt(s: string, p: nat): (m: Option<(nat, nat)>)
    requires p <= |s|
    ensures m.Some? ==> p + 4 <= m.value.0 <= m.value.1 && m.value.1 + 3 <= |s|
    ensures m.Some? ==> OccursAt(s, Fence, p) && OccursAt(s, Fence, m.value.1)
  {
    if !OccursAt(s, Fence, p) then None
    else
      var q := p + 3 + WordRun(s, p + 3);
      if q < |s| && s[q] == '\n' then
        match FindFrom(s, Fence, q + 1)
        case None => None
        case Some(j) => Some((q + 1, j))
      else None
  }

  /** No fence starts inside the enclosed text. */
  lemma MatchedHasNoFence(s: string, p: nat)
    requires p <= |s| && MatchFenceAt(s, p).Some?
    ensures forall k :: MatchFenceAt(s, p).value.0 <= k < MatchFenceAt(s, p).value.1 ==> !OccursAt(s, Fence, k)
  {
    FindFromSkips(s, Fence, MatchFenceAt(s, p).value.0);
  }

  lemma EnclosedHasNoFence(s: string, from: nat, j: nat)
    requires from <= j <= |s|
    requires forall k :: from <= k < j ==> !OccursAt(s, Fence, k)
    ensures !Contains(s[from..j], Fence)
  {
    var t := s[from..j];
    ContainsAt(t, Fence);
    if exists k :: OccursAt(t, Fence, k) {
      var k :| OccursAt(t, Fence, k);
      OccursInSlice(s, from, j, Fence, k);
    }
  }

  /** An occurrence inside a slice is an occurrence in the whole text. */
  lemma OccursInSlice(s: string, lo: nat, hi: nat, sub: string, k: nat)
    requires lo <= hi <= |s| && k + |sub| <= hi - lo
    ensures OccursAt(s[lo..hi], sub, k) <==> OccursAt(s, sub, lo + k)
  {
    var inner := s[lo..hi][k..k + |sub|];
    var outer := s[lo + k..lo + k + |sub|];
    assert forall m :: 0 <= m < |sub| ==> inner[m] == s[lo + k + m] == outer[m];
    assert inner == outer;
  }

  /** `re.findall` of the fence pattern from `from` on: after a match the
      search resumes where it ended, otherwise one character further. */
  function FencedBlocks(s: string, from: nat): (blocks: seq<string>)
    requires from <= |s|
    ensures forall i :: 0 <= i < |blocks| ==> !Contains(blocks[i], Fence)
    decreases |s| - from
  {
    if from == |s| then []
    else
      match MatchFenceAt(s, from)
      case Some((start, stop)) =>
        MatchedHasNoFence(s, from);
        EnclosedHasNoFence(s, start, stop);
        [s[start..stop]] + FencedBlocks(s, stop + 3)
      case None => FencedBlocks(s, from + 1)
  }

  /** The code shown and downloaded: the enclosed texts of all fenced
      blocks, separated by blank lines, when there are fences and some
      block matched; the answer unchanged otherwise. */
  function CleanCode(code: string): (clean: string)
    ensures !Contains(code, Fence) ==> clean == code
  {
    if !Contains(code, Fence) then code
    else
      var blocks := FencedBlocks(code, 0);
      if |blocks| == 0 then code else Join(blocks, "\n\n")
  }

  /** A single fenced block, tagged with a language word, is unwrapped to
      exactly its body, provided the body holds no fence and does not end in
      a backtick. */
  lemma CleanCodeUnwraps(lang: string, body: string)
    requires forall i :: 0 <= i < |lang| ==> IsWordChar(lang[i])
    requires !Contains(body, Fence)
    requires |body| == 0 || body[|body| - 1] != '`'
    ensures CleanCode(Fence + lang + "\n" + body + Fence) == body
  {
    var s := Fence + lang + "\n" + body + Fence;
    SingleFenceMatches(lang, body);
    assert s[4 + |lang|..|s| - 3] == body;
    assert OccursAt(s, Fence, 0);
    ContainsAt(s, Fence);
    assert FencedBlocks(s, |s|) == [];
    assert FencedBlocks(s, 0) == [body];
  }

  /** The pattern matches a single fenced block whole. */
  lemma SingleFenceMatches(lang: string, body: string)
    requires forall i :: 0 <= i < |lang| ==> IsWordChar(lang[i])
    requires !Contains(body, Fence)
    requires |body| == 0 || body[|body| - 1] != '`'
    ensures var s := Fence + lang + "\n" + body + Fence;
      MatchFenceAt(s, 0) == Some((4 + |lang|, |s| - 3))
  {
    var s := Fence + lang + "\n" + body + Fence;
    var n := |lang|;
    FramedParts(s, lang, body);
    NoFenceBefore(s, 4 + n, body);
    MatchBody(s, n, 4 + n + |body|);
  }

  /** A text laid out as fence, word characters, newline, a stretch where
      no fence starts, and a closing fence, matches as one block around
      that stretch. */
  lemma MatchBody(s: string, n: nat, close: nat)
    requires 4 + n <= close && close + 3 == |s|
    requires s[..3] == Fence
    requires forall k :: 3 <= k < 3 + n ==> IsWordChar(s[k])
    requires s[3 + n] == '\n'
    requires forall k :: 4 + n <= k < close ==> !OccursAt(s, Fence, k)
    requires s[close..] == Fence
    ensures MatchFenceAt(s, 0) == Some((4 + n, close))
  {
    ClosingFenceOccurs(s, close);
    FindFromFirst(s, Fence, 4 + n, close);
    MatchFramed(s, n, close);
  }

  /** Where the parts of a single fenced block sit. */
  lemma FramedParts(s: string, lang: string, body: string)
    requires s == Fence + lang + "\n" + body + Fence
    ensures |s| == 7 + |lang| + |body|
    ensures s[..3] == Fence
    ensures forall k :: 3 <= k < 3 + |lang| ==> s[k] == lang[k - 3]
    ensures s[3 + |lang|] == '\n'
    ensures s[4 + |lang|..4 + |lang| + |body|] == body
    ensures s[4 + |lang| + |body|..] == Fence
  {
  }

  /** A fence, a run of word characters and a newline open a block that
      runs to the next fence. */
  lemma MatchFramed(s: string, n: nat, close: nat)
    requires 4 + n <= |s|
    requires s[..3] == Fence
    requires forall k :: 3 <= k < 3 + n ==> IsWordChar(s[k])
    requires s[3 + n] == '\n'
    requires FindFrom(s, Fence, 4 + n).Some? && FindFrom(s, Fence, 4 + n).value == close
    ensures MatchFenceAt(s, 0) == Some((4 + n, close))
  {
    assert OccursAt(s, Fence, 0);
    WordRunExact(s, 3, n);
    MatchFenceFound(s, n, close);
  }

  lemma MatchFenceFound(s: string, n: nat, close: nat)
    requires OccursAt(s, Fence, 0)
    requires WordRun(s, 3) == n
    requires 3 + n < |s| && s[3 + n] == '\n'
    requires FindFrom(s, Fence, 4 + n).Some? && FindFrom(s, Fence, 4 + n).value == close
    ensures MatchFenceAt(s, 0) == Some((4 + n, close))
  {
  }

  lemma ClosingFenceOccurs(s: string, close: nat)
    requires close + 3 == |s| && s[close..] == Fence
    ensures OccursAt(s, Fence, close)
  {
    assert s[close..close + 3] == s[close..];
  }

  /** A run of word characters followed by a non-word character is exactly
      what `WordRun` measures. */
  lemma {:induction false} WordRunExact(s: string, p: nat, n: nat)
    requires p + n < |s|
    requires forall k :: p <= k < p + n ==> IsWordChar(s[k])
    requires !IsWordChar(s[p + n])
    ensures WordRun(s, p) == n
    decreases n
  {
    if n > 0 {
      WordRunExact(s, p + 1, n - 1);
    }
  }

  /** No fence starts inside a fence-free body that does not end in a
      backtick, even one running past the body's end. */
  lemma NoFenceBefore(s: string, from: nat, body: string)
    requires from + |body| <= |s| && s[from..from + |body|] == body
    requires !Contains(body, Fence)
    requires |body| == 0 || body[|body| - 1] != '`'
    ensures forall k :: from <= k < from + |body| ==> !OccursAt(s, Fence, k)
  {
    var end := from + |body|;
    forall k | from <= k < end
      ensures !OccursAt(s, Fence, k)
    {
      if k + 3 <= end {
        NoFenceInside(s, from, body, k);
      } else {
        NoFenceAcrossEnd(s, from, body, k);
      }
    }
  }

  /** A fence starting in the last two characters of a body that does not
      end in a backtick would need that last character to be one. */
  lemma NoFenceAcrossEnd(s: string, from: nat, body: string, k: nat)
    requires from <= k < from + |body| <= |s|
    requires s[from..from + |body|] == body
    requires body[|body| - 1] != '`'
    requires from + |body| < k + 3
    ensures !OccursAt(s, Fence, k)
  {
    var end := from + |body|;
    assert s[end - 1] == body[|body| - 1];
    FenceNeedsBacktick(s, k, end - 1);
  }

  /** A fence lying wholly inside a copy of a fence-free body would be one
      in the body. */
  lemma NoFenceInside(s: string, from: nat, body: string, k: nat)
    requires from <= k && k + 3 <= from + |body| <= |s|
    requires s[from..from + |body|] == body
    requires !Contains(body, Fence)
    ensures !OccursAt(s, Fence, k)
  {
    ContainsAt(body, Fence);
    assert !OccursAt(body, Fence, k - from);
    OccursInSlice(s, from, from + |body|, Fence, k - from);
  }

  /** A fence covering position `p` needs a backtick there. */
  lemma FenceNeedsBacktick(s: string, k: nat, p: nat)
    requires k <= p < k + 3 && p < |s|
    requires s[p] != '`'
    ensures !OccursAt(s, Fence, k)
  {
    if k + 3 <= |s| {
      assert s[k..k + 3][p - k] == s[p];
    }
  }

  /** The first occurrence after `from` is the one with none before it. */
  lemma {:induction false} FindFromFirst(s: string, sub: string, from: nat, k: nat)
    requires from <= k <= |s|
    requires OccursAt(s, sub, k)
    requires forall j :: from <= j < k ==> !OccursAt(s, sub, j)
    ensures FindFrom(s, sub, from) == Some(k)
    decreases k - from
  {
    if from < k {
      FindFromFirst(s, sub, from + 1, k);
    }
  }
}

=== FILE: basics.dfy ===
/** Values shared by every module: optional values, results that carry an
    error message (the text Python's `str(e)` would give), and Python's
    truthiness of an optional string. */
module Basics {

  datatype Option<+T> = None | Some(value: T)

  /** A computation that either produced a value or raised an exception
      whose message is `message`. */
  datatype Result<+T> = Ok(value: T) | Err(message: string)

  /** Python truthiness of a value that is `None` or a `str`: both `None`
      and the empty string are false. */
  predicate Truthy(s: Option<string>) {
    s.Some? && |s.value| > 0
  }
}

=== FILE: cli.dfy ===
/** The command-line test-case generator: choosing documents from the docs
    directory by number, extracting each one's text, combining them into one
    prompt, and naming the output file.

    The console, the file system, the document libraries and the Claude API
    are oracles: the typed choice is a parameter, each chosen file comes with
    whether it exists and what reading it yields, and the API call comes
    with its result. */
module Cli {
  import opened Basics
  import opened Text
  import opened Paths

  // ---------------------------------------------------------------------
  // Choosing files

  /** `int(x.strip())` of every token, `None` standing for the
      `ValueError`. */
  function ParseTokens(tokens: seq<string>): (parsed: seq<Option<int>>)
    ensures |parsed| == |tokens|
    ensures forall i :: 0 <= i < |tokens| ==> parsed[i] == ParseInt(Strip(tokens[i]))
  {
    seq(|tokens|, i requires 0 <= i < |tokens| => ParseInt(Strip(tokens[i])))
  }

  /** All the numbers, or `None` when any token failed: one `ValueError`
      rejects the whole list. */
  function AllParsed(parsed: seq<Option<int>>): (r: Option<seq<int>>)
    ensures r.Some? <==> forall i :: 0 <= i < |parsed| ==> parsed[i].Some?
    ensures r.Some? ==> |r.value| == |parsed|
    ensures r.Some? ==> forall i :: 0 <= i < |parsed| ==> parsed[i] == Some(r.value[i])
    decreases |parsed|
  {
    if |parsed| == 0 then Some([])
    else
      var last := parsed[|parsed| - 1];
      match AllParsed(parsed[..|parsed| - 1])
      case None => None
      case Some(front) =>
        if last.None? then None else Some(front + [last.value])
  }

  /** The files the numbers denote, in the order given; numbers outside
      `1..|available|` are skipped with a warning, repeats are kept. */
  function Pick(available: seq<string>, numbers: seq<int>): (picked: seq<string>)
    ensures |picked| <= |numbers|
    ensures forall f :: f in picked ==> f in available
    ensures (forall i :: 0 <= i < |numbers| ==> 1 <= numbers[i] <= |available|) ==> |picked| == |numbers|
    decreases |numbers|
  {
    if |numbers| == 0 then []
    else
      var k := numbers[|numbers| - 1];
      Pick(available, numbers[..|numbers| - 1]) + (if 1 <= k <= |available| then [available[k - 1]] else [])
  }

  /** Picking goes number by number: the files for two lists of numbers
      are the files for the first followed by those for the second. */
  lemma {:induction false} PickAppend(available: seq<string>, a: seq<int>, b: seq<int>)
    ensures Pick(available, a + b) == Pick(available, a) + Pick(available, b)
    decreases |b|
  {
    if |b| == 0 {
      assert a + b == a;
    } else {
      var init := b[..|b| - 1];
      var k := b[|b| - 1];
      var tail := if 1 <= k <= |available| then [available[k - 1]] else [];
      assert (a + b)[..|a + b| - 1] == a + init;
      assert (a + b)[|a + b| - 1] == k;
      assert Pick(available, a + b) == Pick(available, a + init) + tail;
      assert Pick(available, b) == Pick(available, init) + tail;
      PickAppend(available, a, init);
      assert (Pick(available, a) + Pick(available, init)) + tail == Pick(available, a) + (Pick(available, init) + tail);
    }
  }

  /** One number picks the file at that 1-based position, or nothing when
      it is out of range. */
  lemma PickOne(available: seq<string>, k: int)
    ensures Pick(available, [k]) == if 1 <= k <= |available| then [available[k - 1]] else []
  {
    assert [k][..0] == [];
  }

  /** `select_files`: "all" in any case picks every file; otherwise the
      comma-separated numbers pick files by their 1-based position, and one
      token that is not a number rejects the whole choice. */
  function SelectFiles(available: seq<string>, input: string): (selected: seq<string>)
    ensures forall f :: f in selected ==> f in available
    ensures Lower(Strip(input)) == "all" ==> selected == available
    ensures Lower(Strip(input)) != "all" ==>
      |selected| <= |Split(Strip(input), ',')|
    ensures Lower(Strip(input)) != "all" ==>
      (exists i :: 0 <= i < |Split(Strip(input), ',')| && ParseInt(Strip(Split(Strip(input), ',')[i])).None?) ==>
      selected == []
  {
    var choice := Strip(input);
    if Lower(choice) == "all" then available
    else
      match AllParsed(ParseTokens(Split(choice, ',')))
      case None => []
      case Some(numbers) => Pick(available, numbers)
  }

  /** The numbers 1 to n. */
  function Numerals(n: nat): (r: seq<string>)
    ensures |r| == n
    ensures forall i :: 0 <= i < n ==> r[i] == NatToDecimal(i + 1)
  {
    seq(n, i requires 0 <= i < n => NatToDecimal(i + 1))
  }

  /** The positions 1 to n. */
  function Positions(n: nat): (r: seq<int>)
    ensures |r| == n
    ensures forall i :: 0 <= i < n ==> r[i] == i + 1
  {
    seq(n, i requires 0 <= i < n => i + 1)
  }

  /** The choice "1,2,...,n". */
  function NumberList(n: nat): string {
    Join(Numerals(n), ",")
  }

  predicate DigitOrComma(c: char) {
    IsDigit(c) || c == ','
  }

  lemma NumberListChars(n: nat)
    ensures forall k :: 0 <= k < |NumberList(n)| ==> DigitOrComma(NumberList(n)[k])
  {
    var parts := Numerals(n);
    forall i, j | 0 <= i < |parts| && 0 <= j < |parts[i]|
      ensures DigitOrComma(parts[i][j])
    {
    }
    JoinKeeps(parts, ",", DigitOrComma);
  }

  /** A list of tokens that all parsed yields exactly their numbers. */
  lemma AllParsedSome(parsed: seq<Option<int>>, values: seq<int>)
    requires |parsed| == |values|
    requires forall i :: 0 <= i < |parsed| ==> parsed[i] == Some(values[i])
    ensures AllParsed(parsed) == Some(values)
  {
    var r := AllParsed(parsed);
    assert r.Some?;
    assert r.value == values;
  }

  lemma NumeralsParseEach(n: nat)
    ensures forall i :: 0 <= i < n ==> ParseTokens(Numerals(n))[i] == Some(i + 1)
  {
    var numerals := Numerals(n);
    var parsed := ParseTokens(numerals);
    forall i | 0 <= i < n
      ensures parsed[i] == Some(i + 1)
    {
      assert parsed[i] == ParseInt(Strip(numerals[i]));
      assert numerals[i] == NatToDecimal(i + 1);
      ParseNumeral(i + 1);
    }
  }

  /** Every numeral parses to its own value. */
  lemma NumeralsParse(n: nat)
    ensures AllParsed(ParseTokens(Numerals(n))) == Some(Positions(n))
  {
    NumeralsParseEach(n);
    AllParsedSome(ParseTokens(Numerals(n)), Positions(n));
  }

  lemma ParseNumeral(k: nat)
    ensures ParseInt(Strip(NatToDecimal(k))) == Some(k)
  {
    var r := NatToDecimal(k);
    assert !IsSpace(r[0]) && !IsSpace(r[|r| - 1]);
    StripUnchanged(r);
    ParseDecimal(k);
  }

  /** Picking positions 1 to n picks the first n files. */
  lemma {:induction false} PickPrefix(available: seq<string>, n: nat)
    requires n <= |available|
    ensures Pick(available, Positions(n)) == available[..n]
    decreases n
  {
    var numbers := Positions(n);
    if n > 0 {
      assert numbers[..n - 1] == Positions(n - 1);
      PickPrefix(available, n - 1);
      assert available[..n] == available[..n - 1] + [available[n - 1]];
    }
  }

  /** Once the choice is known not to be "all", the files chosen are the
      ones its numbers pick. */
  lemma SelectByNumbers(available: seq<string>, input: string, numbers: seq<int>)
    requires Lower(Strip(input)) != "all"
    requires AllParsed(ParseTokens(Split(Strip(input), ','))) == Some(numbers)
    ensures SelectFiles(available, input) == Pick(available, numbers)
  {
  }

  lemma AllIsAll(available: seq<string>)
    ensures SelectFiles(available, "all") == available
  {
    StripAll();
    LowerAll();
  }

  lemma StripAll()
    ensures Strip("all") == "all"
  {
    assert !IsSpace('a') && !IsSpace('l');
    StripUnchanged("all");
  }

  lemma LowerAll()
    ensures Lower("all") == "all"
  {
    var lowered := Lower("all");
    assert lowered[0] == 'a' && lowered[1] == 'l' && lowered[2] == 'l';
  }

  /** "1,...,n" has no surrounding whitespace, and is not "all". */
  lemma NumberListIsPlain(n: nat)
    requires n > 0
    ensures Strip(NumberList(n)) == NumberList(n)
    ensures Lower(NumberList(n)) != "all"
  {
    var text := NumberList(n);
    NumberListChars(n);
    assert text[0] == Numerals(n)[0][0] by {
      if n > 1 {
        JoinCons(Numerals(n)[0], Numerals(n)[1..], ",");
        assert [Numerals(n)[0]] + Numerals(n)[1..] == Numerals(n);
      }
    }
    assert DigitOrComma(text[0]) && DigitOrComma(text[|text| - 1]);
    StripUnchanged(text);
    assert Lower(text)[0] == text[0];
  }

  /** Typing every file's number, in order, selects the same files as
      typing "all". */
  lemma SelectEveryNumber(available: seq<string>)
    ensures SelectFiles(available, NumberList(|available|)) == SelectFiles(available, "all")
  {
    var n := |available|;
    AllIsAll(available);
    if n == 0 {
      assert NumberList(0) == "";
      EmptyChoiceSelectsNothing(available);
    } else {
      SelectAllNumbers(available);
    }
  }

  /** An empty choice is a single empty token, which is not a number, so
      nothing is selected. */
  lemma EmptyChoiceSelectsNothing(available: seq<string>)
    ensures SelectFiles(available, "") == []
  {
    assert Strip("") == "";
    assert |Lower("")| == 0;
    var tokens := Split("", ',');
    assert tokens == [""];
    var parsed := ParseTokens(tokens);
    assert parsed[0] == ParseInt(Strip(""));
    assert !WellFormedDigits("");
    assert parsed[0].None?;
  }

  lemma SelectAllNumbers(available: seq<string>)
    requires |available| > 0
    ensures SelectFiles(available, NumberList(|available|)) == available
  {
    var n := |available|;
    var input := NumberList(n);
    NumberListIsPlain(n);
    SplitJoin(Numerals(n), ',');
    assert Split(Strip(input), ',') == Numerals(n);
    NumeralsParse(n);
    SelectByNumbers(available, input, Positions(n));
    PickPrefix(available, n);
    assert available[..n] == available;
  }

  // ---------------------------------------------------------------------
  // Extracting and combining documents

  /** A PDF or Word file name, recognised by its lower-cased ending. */
  predicate IsDocumentName(name: string) {
    EndsWith(Lower(name), ".pdf") || EndsWith(Lower(name), ".docx")
  }

  /** The files offered for choice: the docs directory's entries with a PDF
      or Word ending, in listing order. */
  function ListedFiles(entries: seq<string>): (files: seq<string>)
    ensures |files| <= |entries|
  {
    if |entries| == 0 then []
    else (if IsDocumentName(entries[0]) then [entries[0]] else []) + ListedFiles(entries[1..])
  }

  /** Exactly the PDF and Word entries are offered. */
  lemma {:induction false} ListedFilesMembers(entries: seq<string>, f: string)
    ensures f in ListedFiles(entries) <==> f in entries && IsDocumentName(f)
    decreases |entries|
  {
    if |entries| > 0 {
      ListedFilesMembers(entries[1..], f);
      assert f in entries <==> f == entries[0] || f in entries[1..];
    }
  }

  /** Every offered file is accepted by the extraction step, wherever the
      docs directory is: when the library reads its text, the document is
      that text under the file's name. */
  lemma ListedFileIsRead(docsDir: string, entries: seq<string>, f: string, text: string)
    requires f in ListedFiles(entries)
    ensures ExtractTextFromFile(JoinPath(docsDir, f), Ok(text)) == Ok((Basename(f), text))
    ensures '/' !in f ==> ExtractTextFromFile(JoinPath(docsDir, f), Ok(text)) == Ok((f, text))
  {
    ListedFilesMembers(entries, f);
    JoinPathEndsWith(docsDir, f);
    if EndsWith(Lower(f), ".pdf") {
      LowerEndsWith(JoinPath(docsDir, f), f, ".pdf");
    } else {
      LowerEndsWith(JoinPath(docsDir, f), f, ".docx");
    }
    BasenameOfJoin(docsDir, f);
    if '/' !in f {
      BasenameWithoutSlash(f);
    }
  }

  /** `extract_text_from_file`: PDF and Word files, recognised by their
      lower-cased ending, yield the file's base name and its text; a library
      failure yields its message; any other file is refused by name. */
  function ExtractTextFromFile(filepath: string, read: Result<string>): (r: Result<(string, string)>)
    ensures r.Ok? <==> (EndsWith(Lower(filepath), ".pdf") || EndsWith(Lower(filepath), ".docx")) && read.Ok?
    ensures r.Ok? ==> r.value == (Basename(filepath), read.value)
    ensures !EndsWith(Lower(filepath), ".pdf") && !EndsWith(Lower(filepath), ".docx") ==>
      r == Err("Unsupported file format: " + Basename(filepath))
    ensures (EndsWith(Lower(filepath), ".pdf") || EndsWith(Lower(filepath), ".docx")) && read.Err? ==>
      r == Err(read.message)
  {
    var filename := Basename(filepath);
    if !EndsWith(Lower(filepath), ".pdf") && !EndsWith(Lower(filepath), ".docx") then
      Err("Unsupported file format: " + filename)
    else
      match read
      case Err(msg) => Err(msg)
      case Ok(content) => Ok((filename, content))
  }

  /** One document's part of the prompt, between its two markers. */
  function DocumentBlock(filename: string, content: string): (block: string)
    ensures StartsWith(block, "\n\n=== DOCUMENT: " + filename + " ===\n")
    ensures EndsWith(block, "\n=== END OF " + filename + " ===\n")
    ensures |block| == |"\n\n=== DOCUMENT: " + filename + " ===\n"| + |content| + |"\n=== END OF " + filename + " ===\n"|
    ensures block[|"\n\n=== DOCUMENT: " + filename + " ===\n"|..|block| - |"\n=== END OF " + filename + " ===\n"|] == content
  {
    var head := "\n\n=== DOCUMENT: " + filename + " ===\n";
    var tail := "\n=== END OF " + filename + " ===\n";
    var block := head + content + tail;
    assert block[..|head|] == head;
    assert block[|block| - |tail|..] == tail;
    assert block[|head|..|block| - |tail|] == content;
    block
  }

  /** Each document's block, in order. */
  function DocumentBlocks(documents: seq<(string, string)>): (blocks: seq<string>)
    ensures |blocks| == |documents|
    ensures forall i :: 0 <= i < |documents| ==> blocks[i] == DocumentBlock(documents[i].0, documents[i].1)
  {
    seq(|documents|, i requires 0 <= i < |documents| => DocumentBlock(documents[i].0, documents[i].1))
  }

  /** The combined document content of the prompt: every document's block,
      appended in turn. */
  function CombinedContent(documents: seq<(string, string)>): string {
    Concat(DocumentBlocks(documents))
  }

  /** Combining is compositional: the content for two batches of documents
      is the content of the first followed by that of the second. */
  lemma CombinedContentAppend(a: seq<(string, string)>, b: seq<(string, string)>)
    ensures CombinedContent(a + b) == CombinedContent(a) + CombinedContent(b)
  {
    assert DocumentBlocks(a + b) == DocumentBlocks(a) + DocumentBlocks(b);
    ConcatAppend(DocumentBlocks(a), DocumentBlocks(b));
  }

  lemma CombinedContentSingle(d: (string, string))
    ensures CombinedContent([d]) == DocumentBlock(d.0, d.1)
  {
    assert DocumentBlocks([d]) == [DocumentBlock(d.0, d.1)];
    ConcatSingle(DocumentBlock(d.0, d.1));
  }

  /** Every document's block, markers and text, appears in the combined
      content. */
  lemma CombinedContentHoldsEach(documents: seq<(string, string)>, i: nat)
    requires i < |documents|
    ensures Contains(CombinedContent(documents), DocumentBlock(documents[i].0, documents[i].1))
  {
    ConcatHoldsEach(DocumentBlocks(documents), i);
  }

  /** What `generate_test_cases` sends: the number of documents, their
      names separated by commas, and the combined content. */
  datatype ClaudeRequest = ClaudeRequest(documentCount: nat, fileList: string, combined: string)

  function Names(documents: seq<(string, string)>): (names: seq<string>)
    ensures |names| == |documents|
    ensures forall i :: 0 <= i < |documents| ==> names[i] == documents[i].0
  {
    seq(|documents|, i requires 0 <= i < |documents| => documents[i].0)
  }

  function RequestFor(documents: seq<(string, string)>): ClaudeRequest {
    ClaudeRequest(|documents|, Join(Names(documents), ", "), CombinedContent(documents))
  }

  // ---------------------------------------------------------------------
  // The whole run

  /** A chosen file name, whether `os.path.isfile` holds for it in the docs
      directory, and what the PDF or Word library yields for it. */
  datatype DocInput = DocInput(filename: string, isFile: bool, read: Result<string>)

  /** The chosen file is an existing file whose text could be extracted. */
  predicate Usable(docsDir: string, d: DocInput) {
    d.isFile && ExtractTextFromFile(JoinPath(docsDir, d.filename), d.read).Ok?
  }

  /** The chosen names that survive, in order. */
  function UsableNames(docsDir: string, inputs: seq<DocInput>): (names: seq<string>)
    ensures |names| <= |inputs|
    decreases |inputs|
  {
    if |inputs| == 0 then []
    else
      var d := inputs[|inputs| - 1];
      UsableNames(docsDir, inputs[..|inputs| - 1]) + (if Usable(docsDir, d) then [d.filename] else [])
  }

  /** The document a usable chosen file contributes: its base name and the
      text the PDF or Word library read from it. */
  function Extracted(docsDir: string, d: DocInput): (doc: (string, string))
    requires Usable(docsDir, d)
    ensures doc == (Basename(d.filename), d.read.value)
  {
    BasenameOfJoin(docsDir, d.filename);
    ExtractTextFromFile(JoinPath(docsDir, d.filename), d.read).value
  }

  /** The documents that survive, in order. */
  function UsableDocuments(docsDir: string, inputs: seq<DocInput>): (documents: seq<(string, string)>)
    decreases |inputs|
  {
    if |inputs| == 0 then []
    else
      var d := inputs[|inputs| - 1];
      UsableDocuments(docsDir, inputs[..|inputs| - 1]) + (if Usable(docsDir, d) then [Extracted(docsDir, d)] else [])
  }

  /** The surviving documents line up with the surviving names: one document
      per name, listed under the name's base name. */
  lemma {:induction false} UsableDocumentsNamed(docsDir: string, inputs: seq<DocInput>)
    ensures |UsableDocuments(docsDir, inputs)| == |UsableNames(docsDir, inputs)|
    ensures forall i :: 0 <= i < |UsableDocuments(docsDir, inputs)| ==>
      UsableDocuments(docsDir, inputs)[i].0 == Basename(UsableNames(docsDir, inputs)[i])
    decreases |inputs|
  {
    if |inputs| > 0 {
      var init := inputs[..|inputs| - 1];
      var d := inputs[|inputs| - 1];
      UsableDocumentsNamed(docsDir, init);
      if Usable(docsDir, d) {
        NamedDocumentsGrow(UsableNames(docsDir, init), UsableDocuments(docsDir, init), d.filename, Extracted(docsDir, d));
      }
    }
  }

  /** The text read from every usable chosen file is among the documents,
      under the file's base name. */
  lemma {:induction false} UsableTextIsKept(docsDir: string, inputs: seq<DocInput>, i: nat)
    requires i < |inputs| && Usable(docsDir, inputs[i])
    ensures (Basename(inputs[i].filename), inputs[i].read.value) in UsableDocuments(docsDir, inputs)
    decreases |inputs|
  {
    var init := inputs[..|inputs| - 1];
    if i < |inputs| - 1 {
      assert init[i] == inputs[i];
      UsableTextIsKept(docsDir, init, i);
    } else {
      assert Extracted(docsDir, inputs[i]) == (Basename(inputs[i].filename), inputs[i].read.value);
    }
  }

  /** The request carries the text of every usable chosen file, between the
      markers that name it. */
  lemma UsableTextIsSent(docsDir: string, inputs: seq<DocInput>, i: nat)
    requires i < |inputs| && Usable(docsDir, inputs[i])
    ensures Contains(RequestFor(UsableDocuments(docsDir, inputs)).combined,
                     DocumentBlock(Basename(inputs[i].filename), inputs[i].read.value))
  {
    var documents := UsableDocuments(docsDir, inputs);
    UsableTextIsKept(docsDir, inputs, i);
    var j :| 0 <= j < |documents| && documents[j] == (Basename(inputs[i].filename), inputs[i].read.value);
    CombinedContentHoldsEach(documents, j);
  }

  /** Every usable chosen file survives under its chosen name. */
  lemma {:induction false} UsableIsKept(docsDir: string, inputs: seq<DocInput>, i: nat)
    requires i < |inputs| && Usable(docsDir, inputs[i])
    ensures inputs[i].filename in UsableNames(docsDir, inputs)
    decreases |inputs|
  {
    var init := inputs[..|inputs| - 1];
    var last := inputs[|inputs| - 1];
    var kept := UsableNames(docsDir, init);
    assert UsableNames(docsDir, inputs) == kept + (if Usable(docsDir, last) then [last.filename] else []);
    if i < |inputs| - 1 {
      assert init[i] == inputs[i];
      UsableIsKept(docsDir, init, i);
      assert inputs[i].filename in kept;
    } else {
      assert last == inputs[i];
    }
  }

  /** Only usable chosen files survive. */
  lemma {:induction false} KeptIsUsable(docsDir: string, inputs: seq<DocInput>, f: string)
    requires f in UsableNames(docsDir, inputs)
    ensures exists i :: 0 <= i < |inputs| && inputs[i].filename == f && Usable(docsDir, inputs[i])
    decreases |inputs|
  {
    var init := inputs[..|inputs| - 1];
    if f in UsableNames(docsDir, init) {
      KeptIsUsable(docsDir, init, f);
      var i :| 0 <= i < |init| && init[i].filename == f && Usable(docsDir, init[i]);
      assert inputs[i] == init[i];
    } else {
      assert inputs[|inputs| - 1].filename == f && Usable(docsDir, inputs[|inputs| - 1]);
    }
  }

  /** What one run of `process_multiple_documents` ends in. */
  datatype CliOutcome =
    | NoFilesGiven
    | NothingProcessed
    | GenerationFailed(request: ClaudeRequest, message: string)
    | WriteFailed(request: ClaudeRequest, outputName: string, message: string)
    | Written(request: ClaudeRequest, outputName: string, text: string)

  /** The output file's name: the single document's name without its
      extension, or a count of the documents combined. */
  function OutputName(processed: seq<string>): string
    requires |processed| >= 1
  {
    if |processed| == 1 then SplitExt(processed[0]).0 + "_test_cases.txt"
    else "combined_test_cases_" + NatToDecimal(|processed|) + "_files.txt"
  }

  /** A combined output file's name records how many documents went in:
      the text between its fixed prefix and suffix parses back to the count. */
  lemma OutputNameCount(processed: seq<string>)
    requires |processed| >= 2
    ensures var name := OutputName(processed);
      && StartsWith(name, "combined_test_cases_")
      && EndsWith(name, "_files.txt")
      && ParseInt(name[|"combined_test_cases_"|..|name| - |"_files.txt"|]) == Some(|processed|)
  {
    var digits := NatToDecimal(|processed|);
    var name := OutputName(processed);
    assert name == "combined_test_cases_" + digits + "_files.txt";
    assert name[..|"combined_test_cases_"|] == "combined_test_cases_";
    assert name[|name| - |"_files.txt"|..] == "_files.txt";
    assert name[|"combined_test_cases_"|..|name| - |"_files.txt"|] == digits;
    ParseDecimal(|processed|);
  }

  /** A single document's output file is named after it, whatever
      extension it had. */
  lemma OutputNameSingle(filename: string)
    ensures var name := OutputName([filename]);
      && EndsWith(name, "_test_cases.txt")
      && StartsWith(filename, name[..|name| - |"_test_cases.txt"|])
      && var dropped := filename[|name| - |"_test_cases.txt"|..];
         dropped == "" || (dropped[0] == '.' && '.' !in dropped[1..] && '/' !in dropped[1..])
  {
    var root := SplitExt(filename).0;
    var name := OutputName([filename]);
    SplitExtParts(filename);
    assert name == root + "_test_cases.txt";
    assert name[|name| - |"_test_cases.txt"|..] == "_test_cases.txt";
    assert name[..|name| - |"_test_cases.txt"|] == root;
    assert filename[..|root|] == root;
    assert filename[|root|..] == SplitExt(filename).1;
  }

  /** The first three lines of the output file; the generated test cases
      follow. */
  function OutputHeader(processed: seq<string>): string {
    "Test Cases Generated from: " + Join(processed, ", ") + "\n"
    + "Generated on: claude_tc_api.py\n" + Rule(80) + "\n\n"
  }

  function Rule(n: nat): (r: string)
    ensures |r| == n && forall i :: 0 <= i < n ==> r[i] == '='
  {
    seq(n, i => '=')
  }

  /** A usable document is listed under its own base name. */
  lemma UsableIsNamed(docsDir: string, d: DocInput)
    requires Usable(docsDir, d)
    ensures ExtractTextFromFile(JoinPath(docsDir, d.filename), d.read).value.0 == Basename(d.filename)
  {
    BasenameOfJoin(docsDir, d.filename);
  }

  lemma UsableNamesStep(docsDir: string, inputs: seq<DocInput>, i: nat)
    requires i < |inputs|
    ensures UsableNames(docsDir, inputs[..i + 1])
         == UsableNames(docsDir, inputs[..i]) + (if Usable(docsDir, inputs[i]) then [inputs[i].filename] else [])
    ensures UsableDocuments(docsDir, inputs[..i + 1])
         == UsableDocuments(docsDir, inputs[..i]) + (if Usable(docsDir, inputs[i]) then [Extracted(docsDir, inputs[i])] else [])
  {
    assert inputs[..i + 1][..i] == inputs[..i];
  }

  /** Appending a document read from `name` keeps every document listed
      under the base name of its chosen file. */
  lemma NamedDocumentsGrow(processed: seq<string>, documents: seq<(string, string)>, name: string, doc: (string, string))
    requires |documents| == |processed|
    requires forall k :: 0 <= k < |documents| ==> documents[k].0 == Basename(processed[k])
    requires doc.0 == Basename(name)
    ensures forall k :: 0 <= k < |documents| + 1 ==> (documents + [doc])[k].0 == Basename((processed + [name])[k])
  {
  }

  /** One turn of the reading loop: a usable file is added to both lists,
      anything else leaves them as they were. */
  method GatherOne(docsDir: string, d: DocInput, processed: seq<string>, documents: seq<(string, string)>)
    returns (processed': seq<string>, documents': seq<(string, string)>)
    ensures processed' == processed + (if Usable(docsDir, d) then [d.filename] else [])
    ensures documents' == documents + (if Usable(docsDir, d) then [(Basename(d.filename), d.read.value)] else [])
  {
    if Usable(docsDir, d) {
      var doc := ExtractTextFromFile(JoinPath(docsDir, d.filename), d.read).value;
      BasenameOfJoin(docsDir, d.filename);
      processed', documents' := processed + [d.filename], documents + [doc];
    } else {
      processed', documents' := processed, documents;
    }
  }

  /** The reading loop of `process_multiple_documents`: every chosen name
      is looked up in the docs directory; missing files and files whose
      text cannot be extracted are skipped; the surviving documents are
      named by their base names. */
  method GatherDocuments(docsDir: string, inputs: seq<DocInput>)
    returns (processed: seq<string>, documents: seq<(string, string)>)
    ensures processed == UsableNames(docsDir, inputs)
    ensures documents == UsableDocuments(docsDir, inputs)
    ensures |documents| == |processed|
    ensures forall i :: 0 <= i < |documents| ==> documents[i].0 == Basename(processed[i])
  {
    processed := [];
    documents := [];
    var i := 0;
    while i < |inputs|
      invariant 0 <= i <= |inputs|
      invariant processed == UsableNames(docsDir, inputs[..i])
      invariant documents == UsableDocuments(docsDir, inputs[..i])
    {
      UsableNamesStep(docsDir, inputs, i);
      processed, documents := GatherOne(docsDir, inputs[i], processed, documents);
      i := i + 1;
    }
    assert inputs[..i] == inputs;
    UsableDocumentsNamed(docsDir, inputs);
  }

  /** `process_multiple_documents`: nothing happens without chosen files or
      without a readable one; otherwise the surviving documents are sent in
      one request, and its answer is written under `OutputName`. The
      generation and the file write share one `try`, so either failure ends
      the run with its message; `writeError` is what opening or writing the
      output file raises, if anything. */
  method ProcessMultipleDocuments(docsDir: string, inputs: seq<DocInput>, reply: Result<string>,
                                  writeError: Option<string>)
    returns (outcome: CliOutcome, processed: seq<string>, documents: seq<(string, string)>)
    ensures processed == UsableNames(docsDir, inputs)
    ensures documents == UsableDocuments(docsDir, inputs)
    ensures |documents| == |processed|
    ensures forall i :: 0 <= i < |documents| ==> documents[i].0 == Basename(processed[i])
    ensures |inputs| == 0 <==> outcome.NoFilesGiven?
    ensures |inputs| > 0 && |processed| == 0 <==> outcome.NothingProcessed?
    ensures outcome.GenerationFailed? <==> |processed| > 0 && reply.Err?
    ensures outcome.WriteFailed? <==> |processed| > 0 && reply.Ok? && writeError.Some?
    ensures outcome.Written? <==> |processed| > 0 && reply.Ok? && writeError.None?
    ensures outcome.GenerationFailed? || outcome.WriteFailed? || outcome.Written? ==>
              outcome.request == RequestFor(documents)
    ensures outcome.GenerationFailed? ==> outcome.message == reply.message
    ensures outcome.WriteFailed? ==> outcome.outputName == OutputName(processed) && outcome.message == writeError.value
    ensures outcome.Written? ==> outcome.outputName == OutputName(processed)
    ensures outcome.Written? ==> outcome.text == OutputHeader(processed) + reply.value
  {
    processed, documents := GatherDocuments(docsDir, inputs);
    if |inputs| == 0 {
      outcome := NoFilesGiven;
    } else if |documents| == 0 {
      outcome := NothingProcessed;
    } else {
      match reply
      case Err(msg) =>
        outcome := GenerationFailed(RequestFor(documents), msg);
      case Ok(testCases) =>
        match writeError
        case Some(msg) =>
          outcome := WriteFailed(RequestFor(documents), OutputName(processed), msg);
        case None =>
          outcome := Written(RequestFor(documents), OutputName(processed), OutputHeader(processed) + testCases);
    }
  }
}

=== FILE: paths.dfy ===
/** POSIX path handling as Python's `os.path` does it (`basename`,
    `splitext`, `join`), and the "text after the last dot" that
    `name.split('.')[-1]` picks out. */
module Paths {
  import opened Text

  /** Index of the last occurrence of `c`, or -1. */
  function LastIndexOf(s: string, c: char): (k: int)
    ensures -1 <= k < |s|
    ensures k >= 0 ==> s[k] == c
    ensures forall j :: k < j < |s| ==> s[j] != c
    decreases |s|
  {
    if |s| == 0 then -1
    else if s[|s| - 1] == c then |s| - 1
    else LastIndexOf(s[..|s| - 1], c)
  }

  /** The contract of `LastIndexOf` pins its value down. */
  lemma LastIndexOfUnique(s: string, c: char, k: int)
    requires -1 <= k < |s|
    requires k >= 0 ==> s[k] == c
    requires forall j :: k < j < |s| ==> s[j] != c
    ensures LastIndexOf(s, c) == k
  {
  }

  /** `os.path.basename`: the text after the last `/`. */
  function Basename(p: string): (b: string)
    ensures '/' !in b
    ensures EndsWith(p, b)
  {
    var k := LastIndexOf(p, '/');
    assert p[|p| - |p[k + 1..]|..] == p[k + 1..];
    p[k + 1..]
  }

  /** `os.path.join(a, b)` with one component: an absolute `b` replaces `a`;
      otherwise a `/` is inserted unless `a` is empty or already ends in one. */
  function JoinPath(a: string, b: string): string {
    if |b| > 0 && b[0] == '/' then b
    else if |a| == 0 || a[|a| - 1] == '/' then a + b
    else a + "/" + b
  }

  /** The last occurrence in a concatenation is the last one in the second
      part, if it has one, and otherwise the last one in the first part. */
  lemma {:induction false} LastIndexOfConcat(pre: string, post: string, c: char)
    ensures LastIndexOf(pre + post, c)
         == if LastIndexOf(post, c) >= 0 then |pre| + LastIndexOf(post, c) else LastIndexOf(pre, c)
    decreases |post|
  {
    if |post| == 0 {
      assert pre + post == pre;
    } else if post[|post| - 1] != c {
      assert (pre + post)[..|pre + post| - 1] == pre + post[..|post| - 1];
      LastIndexOfConcat(pre, post[..|post| - 1], c);
    }
  }

  /** A name without a `/` is its own basename. */
  lemma BasenameWithoutSlash(p: string)
    requires '/' !in p
    ensures Basename(p) == p
  {
    LastIndexOfUnique(p, '/', -1);
    assert p[0..] == p;
  }

  /** A joined path ends with the component joined on. */
  lemma JoinPathEndsWith(a: string, b: string)
    ensures EndsWith(JoinPath(a, b), b)
  {
    var p := JoinPath(a, b);
    if |b| > 0 && b[0] == '/' {
    } else if |a| == 0 || a[|a| - 1] == '/' {
      assert p[|p| - |b|..] == b;
    } else {
      assert p == (a + "/") + b;
      assert p[|p| - |b|..] == b;
    }
  }

  /** Text placed after a directory prefix that is empty or ends in `/`
      keeps its basename. */
  lemma BasenameAfterSlash(pre: string, name: string)
    requires |pre| == 0 || pre[|pre| - 1] == '/'
    ensures Basename(pre + name) == Basename(name)
  {
    var p := pre + name;
    var k := LastIndexOf(name, '/');
    LastIndexOfConcat(pre, name, '/');
    assert p[|pre| + k + 1..] == name[k + 1..];
  }

  /** The basename of a joined path is the basename of its last component,
      whatever directory it was joined to. */
  lemma BasenameOfJoin(dir: string, name: string)
    ensures Basename(JoinPath(dir, name)) == Basename(name)
  {
    if |name| > 0 && name[0] == '/' {
      assert JoinPath(dir, name) == name;
    } else if |dir| == 0 || dir[|dir| - 1] == '/' {
      assert JoinPath(dir, name) == dir + name;
      BasenameAfterSlash(dir, name);
    } else {
      assert JoinPath(dir, name) == (dir + "/") + name;
      BasenameAfterSlash(dir + "/", name);
    }
  }

  /** `os.path.splitext` on POSIX: the extension starts at the last dot of the
      last path component, provided some character other than a dot comes
      before that dot within the component; otherwise it is empty. */
  function SplitExt(p: string): (string, string) {
    var sepIndex := LastIndexOf(p, '/');
    var dotIndex := LastIndexOf(p, '.');
    if dotIndex > sepIndex && exists k :: sepIndex < k < dotIndex && p[k] != '.' then
      (p[..dotIndex], p[dotIndex..])
    else
      (p, "")
  }

  /** `splitext` loses nothing: root and extension concatenate back to the
      path, and an extension is a dot followed by text free of dots and
      slashes, preceded in the root by a character that is not a dot. */
  lemma SplitExtParts(p: string)
    ensures SplitExt(p).0 + SplitExt(p).1 == p
    ensures var ext := SplitExt(p).1;
      ext == "" || (ext[0] == '.' && '.' !in ext[1..] && '/' !in ext[1..])
    ensures SplitExt(p).1 != "" ==> exists k :: 0 <= k < |SplitExt(p).0| && SplitExt(p).0[k] != '.'
  {
    var sepIndex := LastIndexOf(p, '/');
    var dotIndex := LastIndexOf(p, '.');
    if dotIndex > sepIndex && exists k :: sepIndex < k < dotIndex && p[k] != '.' {
      var ext := p[dotIndex..];
      assert p[..dotIndex] + ext == p;
      forall i | 1 <= i < |ext|
        ensures ext[i] != '.' && ext[i] != '/'
      {
        assert ext[i] == p[dotIndex + i];
      }
      var k :| sepIndex < k < dotIndex && p[k] != '.';
      assert p[..dotIndex][k] != '.';
    }
  }

  /** A name made of a stem and a dot-free extension splits back into the
      two, provided the stem ends in a character that is neither a dot nor
      a slash. */
  lemma SplitExtOfDotted(stem: string, ext: string)
    requires |stem| > 0 && stem[|stem| - 1] != '.' && stem[|stem| - 1] != '/'
    requires '.' !in ext && '/' !in ext
    ensures SplitExt(stem + "." + ext) == (stem, "." + ext)
  {
    var p := stem + "." + ext;
    var d := |stem|;
    assert p[d] == '.';
    forall j | d < j < |p|
      ensures p[j] != '.' && p[j] != '/'
    {
      assert p[j] == ext[j - d - 1];
    }
    LastIndexOfUnique(p, '.', d);
    var sepIndex := LastIndexOf(p, '/');
    assert p[d - 1] == stem[d - 1];
    assert sepIndex < d - 1;
    assert p[..d] == stem;
    assert p[d..] == "." + ext;
  }

  /** Python's `name.split('.')[-1]`: the whole name when it has no dot. */
  function LastSegment(name: string): (seg: string)
    ensures '.' !in seg
  {
    var parts := Split(name, '.');
    SplitPiecesLackSep(name, '.');
    parts[|parts| - 1]
  }

  /** The last dot-separated segment is exactly the text after the last dot. */
  lemma LastSegmentAfterLastDot(name: string)
    ensures LastSegment(name) == name[LastIndexOf(name, '.') + 1..]
  {
    var k := LastIndexOf(name, '.');
    if k < 0 {
      SplitWithoutSep(name, '.');
    } else {
      SplitAround(name, k, '.');
      SplitWithoutSep(name[k + 1..], '.');
    }
  }
}

=== FILE: retry.dfy ===
/** The retry loop both chat-completion call sites of the test-case
    generator use: `for attempt in range(max_retries)` around one API call,
    where a rate-limit error on a non-final attempt sleeps for the attempt's
    back-off and tries again, a rate-limit error on the final attempt is
    re-raised, and every other error is re-raised at once.

    The API is an oracle: `replies[i]` is what the i-th call would return.
    Sleeping is recorded as the list of waits, in seconds. */
module Retry {

  datatype Reply =
    | Completion(content: string)        // response['choices'][0]['message']['content']
    | RateLimited(message: string)       // openai.error.RateLimitError
    | InvalidRequest(message: string)    // openai.error.InvalidRequestError
    | Failed(message: string)            // any other exception

  datatype Outcome = Answered(content: string) | Raised(error: Reply)

  /** What one run of the loop did: its outcome, how many calls it made, and
      the sleeps it performed, in order. */
  datatype Trace = Trace(outcome: Outcome, calls: nat, waits: seq<nat>)

  /** Runs attempts `attempt`, `attempt + 1`, ... of a loop with
      `|backoff| + 1` attempts; `backoff[i]` is the sleep after a rate limit
      on attempt `i`. */
  function Attempt(replies: seq<Reply>, backoff: seq<nat>, attempt: nat): (t: Trace)
    requires attempt <= |backoff| < |replies|
    ensures attempt < t.calls <= |backoff| + 1
    ensures forall j :: attempt <= j < t.calls - 1 ==> replies[j].RateLimited?
    ensures t.calls <= |backoff| ==> !replies[t.calls - 1].RateLimited?
    ensures |t.waits| == t.calls - 1 - attempt
    ensures forall i :: 0 <= i < |t.waits| ==> t.waits[i] == backoff[attempt + i]
    ensures t.outcome == if replies[t.calls - 1].Completion? then Answered(replies[t.calls - 1].content)
                         else Raised(replies[t.calls - 1])
    decreases |backoff| - attempt
  {
    match replies[attempt]
    case Completion(content) => Trace(Answered(content), attempt + 1, [])
    case RateLimited(_) =>
      if attempt < |backoff| then
        var later := Attempt(replies, backoff, attempt + 1);
        Trace(later.outcome, later.calls, [backoff[attempt]] + later.waits)
      else
        Trace(Raised(replies[attempt]), attempt + 1, [])
    case _ => Trace(Raised(replies[attempt]), attempt + 1, [])
  }

  /** The whole loop. It makes between one and `|backoff| + 1` calls; every
      call but the last met a rate limit; it sleeps exactly once per retry,
      for the back-off of the attempt that was rate limited; it stops early
      only on an answer or an error that is not a rate limit; and its outcome
      is the last reply. */
  function RunWithRetries(replies: seq<Reply>, backoff: seq<nat>): (t: Trace)
    requires |backoff| < |replies|
    ensures 1 <= t.calls <= |backoff| + 1
    ensures forall j :: 0 <= j < t.calls - 1 ==> replies[j].RateLimited?
    ensures t.calls <= |backoff| ==> !replies[t.calls - 1].RateLimited?
    ensures t.waits == backoff[..t.calls - 1]
    ensures t.outcome.Answered? <==> replies[t.calls - 1].Completion?
    ensures t.outcome.Answered? ==> t.outcome.content == replies[t.calls - 1].content
    ensures t.outcome.Raised? ==> t.outcome.error == replies[t.calls - 1]
  {
    Attempt(replies, backoff, 0)
  }

  /** The loop is decided by the first reply that is not a rate limit: if the
      first `n` replies are rate limits and reply `n` is not, and `n` is
      within the attempt budget, the loop makes exactly `n + 1` calls. */
  lemma FirstNonRateLimitDecides(replies: seq<Reply>, backoff: seq<nat>, n: nat)
    requires |backoff| < |replies|
    requires n <= |backoff|
    requires forall j :: 0 <= j < n ==> replies[j].RateLimited?
    requires !replies[n].RateLimited?
    ensures RunWithRetries(replies, backoff).calls == n + 1
  {
  }

  /** Exhausting the budget: when every allowed attempt meets a rate limit,
      the last rate-limit error is what escapes. */
  lemma ExhaustedRaisesLastRateLimit(replies: seq<Reply>, backoff: seq<nat>)
    requires |backoff| < |replies|
    requires forall j :: 0 <= j <= |backoff| ==> replies[j].RateLimited?
    ensures RunWithRetries(replies, backoff).calls == |backoff| + 1
    ensures RunWithRetries(replies, backoff).outcome == Raised(replies[|backoff|])
    ensures RunWithRetries(replies, backoff).waits == backoff
  {
    var t := RunWithRetries(replies, backoff);
    assert backoff[..|backoff|] == backoff;
  }
}

=== FILE: text.dfy ===
/** The parts of Python's `str` and `int` behaviour that the application
    relies on: lower-casing, `strip()`, `split(sep)`, `sep.join(...)`, the
    `in` substring test, `endswith`, `int(text)` and `str(n)`, and
    `bytes.hex()`. */
module Text {
  import opened Basics

  // ---------------------------------------------------------------------
  // Case and prefixes

  /** Lower-cases an ASCII capital; every other character is kept. */
  function LowerChar(c: char): char {
    if 'A' <= c <= 'Z' then (c as int + 32) as char else c
  }

  function Lower(s: string): (r: string)
    ensures |r| == |s|
    ensures forall i :: 0 <= i < |s| ==> r[i] == LowerChar(s[i])
  {
    seq(|s|, i requires 0 <= i < |s| => LowerChar(s[i]))
  }

  /** Lower-casing twice is lower-casing once. */
  lemma LowerIdempotent(s: string)
    ensures Lower(Lower(s)) == Lower(s)
  {
    forall i | 0 <= i < |s|
      ensures Lower(Lower(s))[i] == Lower(s)[i]
    {
      assert Lower(s)[i] == LowerChar(s[i]);
    }
  }

  predicate StartsWith(s: string, prefix: string) {
    |prefix| <= |s| && s[..|prefix|] == prefix
  }

  predicate EndsWith(s: string, suffix: string) {
    |suffix| <= |s| && s[|s| - |suffix|..] == suffix
  }

  /** An ending of the lower-cased form of a suffix is an ending of the
      lower-cased form of the whole text. */
  lemma LowerEndsWith(s: string, suffix: string, ending: string)
    requires EndsWith(s, suffix) && EndsWith(Lower(suffix), ending)
    ensures EndsWith(Lower(s), ending)
  {
    forall j | 0 <= j < |ending|
      ensures Lower(s)[|s| - |ending| + j] == ending[j]
    {
      assert s[|s| - |ending| + j] == suffix[|suffix| - |ending| + j];
      assert Lower(suffix)[|suffix| - |ending| + j] == ending[j];
    }
    assert Lower(s)[|s| - |ending|..] == ending;
  }

  /** Python's `sub in s`. */
  predicate Contains(s: string, sub: string)
    decreases |s|
  {
    StartsWith(s, sub) || (|s| > 0 && Contains(s[1..], sub))
  }

  /** `sub` occurs in `s` starting at index `k`. */
  predicate OccursAt(s: string, sub: string, k: int) {
    0 <= k && k + |sub| <= |s| && s[k..k + |sub|] == sub
  }

  /** `Contains` is the existence of an occurrence. */
  lemma {:induction false} ContainsAt(s: string, sub: string)
    ensures Contains(s, sub) <==> exists k :: OccursAt(s, sub, k)
    decreases |s|
  {
    if StartsWith(s, sub) {
      assert OccursAt(s, sub, 0);
    }
    if |s| > 0 {
      ContainsAt(s[1..], sub);
      if exists k :: OccursAt(s, sub, k) {
        var k :| OccursAt(s, sub, k);
        if k > 0 {
          assert s[1..][k - 1..k - 1 + |sub|] == s[k..k + |sub|];
          assert OccursAt(s[1..], sub, k - 1);
        } else {
          assert StartsWith(s, sub);
        }
      }
      if Contains(s[1..], sub) {
        var k :| OccursAt(s[1..], sub, k);
        assert s[k + 1..k + 1 + |sub|] == s[1..][k..k + |sub|];
        assert OccursAt(s, sub, k + 1);
      }
    } else if exists k :: OccursAt(s, sub, k) {
      var k :| OccursAt(s, sub, k);
      assert StartsWith(s, sub);
    }
  }

  /** Text placed between two others occurs in the whole. */
  lemma ContainsMiddle(s: string, a: string, b: string, c: string)
    requires s == a + (b + c)
    ensures Contains(s, b)
  {
    assert s[|a|..|a| + |b|] == b;
    assert OccursAt(s, b, |a|);
    ContainsAt(s, b);
  }

  // ---------------------------------------------------------------------
  // Whitespace and strip()

  /** The characters Python's `str.isspace()` accepts. */
  predicate IsSpace(c: char) {
    var n := c as int;
    n == 32 || (9 <= n <= 13) || (0x1c <= n <= 0x1f) || n == 0x85 || n == 0xa0
    || n == 0x1680 || (0x2000 <= n <= 0x200a) || n == 0x2028 || n == 0x2029
    || n == 0x202f || n == 0x205f || n == 0x3000
  }

  function TrimStart(s: string): (r: string)
    ensures |r| <= |s| && r == s[|s| - |r|..]
    ensures |r| > 0 ==> !IsSpace(r[0])
    ensures forall i :: 0 <= i < |s| - |r| ==> IsSpace(s[i])
    decreases |s|
  {
    if |s| > 0 && IsSpace(s[0]) then TrimStart(s[1..]) else s
  }

  function TrimEnd(s: string): (r: string)
    ensures |r| <= |s| && r == s[..|r|]
    ensures |r| > 0 ==> !IsSpace(r[|r| - 1])
    ensures forall i :: |r| <= i < |s| ==> IsSpace(s[i])
    decreases |s|
  {
    if |s| > 0 && IsSpace(s[|s| - 1]) then TrimEnd(s[..|s| - 1]) else s
  }

  /** Python's `s.strip()`. */
  function Strip(s: string): string {
    TrimEnd(TrimStart(s))
  }

  /** A string that neither starts nor ends with whitespace is its own strip. */
  lemma StripUnchanged(s: string)
    requires |s| > 0 ==> !IsSpace(s[0]) && !IsSpace(s[|s| - 1])
    ensures Strip(s) == s
  {
  }

  // ---------------------------------------------------------------------
  // split and join

  /** Python's `s.split(sep)` for a one-character separator: there is always
      at least one piece. */
  function Split(s: string, sep: char): (parts: seq<string>)
    ensures |parts| >= 1
    decreases |s|
  {
    if |s| == 0 then [""]
    else
      var rest := Split(s[1..], sep);
      if s[0] == sep then [""] + rest
      else [[s[0]] + rest[0]] + rest[1..]
  }

  /** No piece of a split contains the separator. */
  lemma {:induction false} SplitPiecesLackSep(s: string, sep: char)
    ensures forall i :: 0 <= i < |Split(s, sep)| ==> sep !in Split(s, sep)[i]
    decreases |s|
  {
    if |s| > 0 {
      SplitPiecesLackSep(s[1..], sep);
      var rest := Split(s[1..], sep);
      if s[0] != sep {
        assert sep !in [s[0]] + rest[0];
      }
    }
  }

  /** The pieces written one after another, as a loop appending each to
      the text so far builds them. */
  function Concat(pieces: seq<string>): string
    decreases |pieces|
  {
    if |pieces| == 0 then "" else Concat(pieces[..|pieces| - 1]) + pieces[|pieces| - 1]
  }

  /** The text splits at any piece boundary into the pieces before it and
      those from it on. */
  lemma {:induction false} ConcatSplit(pieces: seq<string>, k: nat)
    requires k <= |pieces|
    ensures Concat(pieces) == Concat(pieces[..k]) + Concat(pieces[k..])
    decreases |pieces|
  {
    var n := |pieces|;
    if k == n {
      assert pieces[..k] == pieces;
      assert pieces[k..] == [];
    } else {
      var init := pieces[..n - 1];
      var rest := pieces[k..];
      ConcatSplit(init, k);
      assert init[..k] == pieces[..k];
      assert rest[..|rest| - 1] == init[k..];
      assert rest[|rest| - 1] == pieces[n - 1];
      var front := Concat(pieces[..k]);
      var middle := Concat(init[k..]);
      assert Concat(rest) == middle + pieces[n - 1];
      assert (front + middle) + pieces[n - 1] == front + (middle + pieces[n - 1]);
    }
  }

  lemma ConcatAppend(a: seq<string>, b: seq<string>)
    ensures Concat(a + b) == Concat(a) + Concat(b)
  {
    ConcatSplit(a + b, |a|);
    assert (a + b)[..|a|] == a;
    assert (a + b)[|a|..] == b;
  }

  lemma ConcatSingle(piece: string)
    ensures Concat([piece]) == piece
  {
    assert [piece][..0] == [];
  }

  /** Every piece occurs in the text. */
  lemma ConcatHoldsEach(pieces: seq<string>, i: nat)
    requires i < |pieces|
    ensures Contains(Concat(pieces), pieces[i])
  {
    var rest := pieces[i..];
    ConcatSplit(pieces, i);
    ConcatSplit(rest, 1);
    assert rest[..1] == [pieces[i]];
    assert rest[1..] == pieces[i + 1..];
    ConcatSingle(pieces[i]);
    ContainsMiddle(Concat(pieces), Concat(pieces[..i]), pieces[i], Concat(pieces[i + 1..]));
  }

  /** Python's `sep.join(parts)`. */
  function Join(parts: seq<string>, sep: string): string
    decreases |parts|
  {
    if |parts| == 0 then ""
    else if |parts| == 1 then parts[0]
    else parts[0] + sep + Join(parts[1..], sep)
  }

  lemma JoinCons(p: string, rest: seq<string>, sep: string)
    requires |rest| >= 1
    ensures Join([p] + rest, sep) == p + sep + Join(rest, sep)
  {
    assert ([p] + rest)[1..] == rest;
  }

  /** Joining the pieces with the separator gives back the original text. */
  lemma {:induction false} JoinSplit(s: string, sep: char)
    ensures Join(Split(s, sep), [sep]) == s
    decreases |s|
  {
    if |s| > 0 {
      var rest := Split(s[1..], sep);
      JoinSplit(s[1..], sep);
      if s[0] == sep {
        JoinCons("", rest, [sep]);
        assert s == [sep] + s[1..];
      } else if |rest| == 1 {
        assert s == [s[0]] + s[1..];
      } else {
        JoinCons(rest[0], rest[1..], [sep]);
        assert rest == [rest[0]] + rest[1..];
        JoinCons([s[0]] + rest[0], rest[1..], [sep]);
        assert s == [s[0]] + s[1..];
      }
    }
  }

  /** Text without the separator splits into itself alone. */
  lemma {:induction false} SplitWithoutSep(s: string, sep: char)
    requires sep !in s
    ensures Split(s, sep) == [s]
    decreases |s|
  {
    if |s| > 0 {
      SplitWithoutSep(s[1..], sep);
      assert [s[0]] + s[1..] == s;
    }
  }

  /** A separator-free head followed by the separator is split off first. */
  lemma {:induction false} SplitAfterHead(head: string, sep: char, tail: string)
    requires sep !in head
    ensures Split(head + [sep] + tail, sep) == [head] + Split(tail, sep)
    decreases |head|
  {
    var s := head + [sep] + tail;
    if |head| == 0 {
      assert s[1..] == tail;
    } else {
      assert s[1..] == head[1..] + [sep] + tail;
      SplitAfterHead(head[1..], sep, tail);
      assert [head[0]] + head[1..] == head;
    }
  }

  /** Splitting text that starts with one known character. */
  lemma SplitCons(c: char, t: string, sep: char)
    ensures Split([c] + t, sep)
         == if c == sep then [""] + Split(t, sep)
            else [[c] + Split(t, sep)[0]] + Split(t, sep)[1..]
  {
    assert ([c] + t)[1..] == t;
  }

  /** Splitting at one separator splits each side on its own. */
  lemma {:induction false} SplitAround(s: string, k: nat, sep: char)
    requires k < |s| && s[k] == sep
    ensures Split(s, sep) == Split(s[..k], sep) + Split(s[k + 1..], sep)
    decreases k
  {
    var r := Split(s[1..], sep);
    if k == 0 {
      assert s[..0] == [];
    } else {
      var t := Split(s[k + 1..], sep);
      var head := s[..k];
      SplitAround(s[1..], k - 1, sep);
      assert s[1..][..k - 1] == head[1..];
      assert s[1..][k..] == s[k + 1..];
      var p := Split(head[1..], sep);
      assert r == p + t;
      if s[0] != sep {
        MergeFirstPiece(s[0], p, t);
      } else {
        assert [""] + (p + t) == ([""] + p) + t;
      }
    }
  }

  /** Prefixing a character to the first piece commutes with appending
      more pieces. */
  lemma MergeFirstPiece(c: char, r: seq<string>, t: seq<string>)
    requires |r| >= 1
    ensures [[c] + (r + t)[0]] + (r + t)[1..] == ([[c] + r[0]] + r[1..]) + t
  {
    assert (r + t)[0] == r[0];
    assert (r + t)[1..] == r[1..] + t;
  }

  /** `a + sep + b` splits into exactly `[a, b]` when neither side holds the
      separator. */
  lemma SplitPair(a: string, sep: char, b: string)
    requires sep !in a && sep !in b
    ensures Split(a + [sep] + b, sep) == [a, b]
  {
    SplitAfterHead(a, sep, b);
    SplitWithoutSep(b, sep);
  }

  /** Splitting joined pieces gives the pieces back, provided none of them
      holds the separator. */
  lemma {:induction false} SplitJoin(parts: seq<string>, sep: char)
    requires |parts| >= 1
    requires forall i :: 0 <= i < |parts| ==> sep !in parts[i]
    ensures Split(Join(parts, [sep]), sep) == parts
    decreases |parts|
  {
    if |parts| == 1 {
      SplitWithoutSep(parts[0], sep);
    } else {
      SplitJoin(parts[1..], sep);
      SplitAfterHead(parts[0], sep, Join(parts[1..], [sep]));
      assert [parts[0]] + parts[1..] == parts;
    }
  }

  /** A property every character of the pieces and of the separator has is
      a property of every character of the joined text. */
  lemma {:induction false} JoinKeeps(parts: seq<string>, sep: string, P: char -> bool)
    requires forall i, j :: 0 <= i < |parts| && 0 <= j < |parts[i]| ==> P(parts[i][j])
    requires forall j :: 0 <= j < |sep| ==> P(sep[j])
    ensures forall k :: 0 <= k < |Join(parts, sep)| ==> P(Join(parts, sep)[k])
    decreases |parts|
  {
    if |parts| > 1 {
      var rest := parts[1..];
      JoinKeeps(rest, sep, P);
      var s := Join(parts, sep);
      var t := Join(rest, sep);
      assert s == parts[0] + sep + t;
      forall k | 0 <= k < |s|
        ensures P(s[k])
      {
        if k < |parts[0]| {
          assert s[k] == parts[0][k];
        } else if k < |parts[0]| + |sep| {
          assert s[k] == sep[k - |parts[0]|];
        } else {
          assert s[k] == t[k - |parts[0]| - |sep|];
        }
      }
    }
  }

  // ---------------------------------------------------------------------
  // int(text) and str(n)

  predicate IsDigit(c: char) {
    '0' <= c <= '9'
  }

  function DigitValue(c: char): (d: nat)
    requires IsDigit(c)
    ensures d < 10
  {
    c as int - '0' as int
  }

  function DigitChar(d: nat): (c: char)
    requires d < 10
    ensures IsDigit(c) && DigitValue(c) == d
  {
    (d + '0' as int) as char
  }

  /** The digit part Python's `int()` accepts: ASCII digits, with single
      underscores allowed between two digits. */
  predicate WellFormedDigits(s: string) {
    && |s| > 0
    && IsDigit(s[0])
    && IsDigit(s[|s| - 1])
    && (forall i :: 0 <= i < |s| ==> IsDigit(s[i]) || s[i] == '_')
    && (forall i :: 0 < i < |s| && s[i] == '_' ==> s[i - 1] != '_')
  }

  /** The value of a run of digits and underscores, underscores ignored. */
  function DigitsValue(s: string): nat
    requires forall i :: 0 <= i < |s| ==> IsDigit(s[i]) || s[i] == '_'
    decreases |s|
  {
    if |s| == 0 then 0
    else
      var last := s[|s| - 1];
      if last == '_' then DigitsValue(s[..|s| - 1])
      else 10 * DigitsValue(s[..|s| - 1]) + DigitValue(last)
  }

  /** Python's `int(text)` in base 10: surrounding whitespace is ignored, one
      optional sign, then well-formed digits; anything else is a
      `ValueError`, modelled as `None`. */
  function ParseInt(text: string): Option<int> {
    var s := Strip(text);
    if |s| > 0 && (s[0] == '+' || s[0] == '-') then
      var body := s[1..];
      if WellFormedDigits(body) then
        var v: int := DigitsValue(body);
        Some(if s[0] == '-' then -v else v)
      else None
    else if WellFormedDigits(s) then Some(DigitsValue(s))
    else None
  }

  /** Python's `str(n)` for a natural number. */
  function NatToDecimal(n: nat): (r: string)
    ensures |r| > 0
    ensures forall i :: 0 <= i < |r| ==> IsDigit(r[i])
    decreases n
  {
    if n < 10 then [DigitChar(n)] else NatToDecimal(n / 10) + [DigitChar(n % 10)]
  }

  lemma {:induction false} DecimalValue(n: nat)
    ensures DigitsValue(NatToDecimal(n)) == n
    decreases n
  {
    var r := NatToDecimal(n);
    if n < 10 {
      assert r[..0] == [];
    } else {
      DecimalValue(n / 10);
      assert r[..|r| - 1] == NatToDecimal(n / 10);
    }
  }

  /** `int(str(n)) == n`: the decimal rendering parses back to the number. */
  lemma ParseDecimal(n: nat)
    ensures ParseInt(NatToDecimal(n)) == Some(n)
  {
    var r := NatToDecimal(n);
    assert !IsSpace(r[0]) && !IsSpace(r[|r| - 1]);
    StripUnchanged(r);
    assert IsDigit(r[0]);
    assert WellFormedDigits(r);
    DecimalValue(n);
  }

  // ---------------------------------------------------------------------
  // bytes.hex()

  newtype byte = x: int | 0 <= x < 256

  const HexDigits: string := "0123456789abcdef"

  /** Python's `bytes.hex()`: two lower-case hexadecimal digits per byte. */
  function Hex(bs: seq<byte>): (h: string)
    ensures |h| == 2 * |bs|
    ensures forall i :: 0 <= i < |h| ==> h[i] in HexDigits
    decreases |bs|
  {
    if |bs| == 0 then ""
    else [HexDigits[bs[0] as int / 16], HexDigits[bs[0] as int % 16]] + Hex(bs[1..])
  }

  /** Hexadecimal text never holds a given non-hex character. */
  lemma HexAvoids(bs: seq<byte>, c: char)
    requires c !in HexDigits
    ensures c !in Hex(bs)
  {
    var h := Hex(bs);
    forall i | 0 <= i < |h|
      ensures h[i] != c
    {
      assert h[i] in HexDigits;
    }
  }
}

=== FILE: users.dfy ===
/** The user-account store behind the login screen and the admin panel.

    The document database is a map from the lower-cased e-mail address (the
    document id) to a user record; `Offline` is the manager whose database
    client could not be created. The clock is the parameter `now`, the
    random salt of `secrets.token_hex` is the parameter `salt`, and PBKDF2 is
    the uninterpreted deterministic function `kdf`. A document update on a
    missing id raises in the database client and the manager swallows it, so
    every update of a missing user fails and changes nothing. */
module Users {
  import opened Basics
  import opened Text

  /** PBKDF2-HMAC-SHA256 with a fixed iteration count, as a function of the
      password and the salt text. */
  type Kdf = (string, string) -> seq<byte>

  /** `secrets.token_hex(32)` draws 32 random bytes. */
  const SaltBytes: nat := 32

  /** Who did something, and when. */
  datatype Stamp = Stamp(at: int, actor: Option<string>)

  datatype UserRecord = UserRecord(
    email: string,
    passwordHash: string,
    role: string,
    createdAt: int,
    createdBy: Option<string>,
    isActive: bool,
    lastLogin: Option<int>,
    loginCount: int,
    forcePasswordChange: Option<bool>,   // absent until the first reset or change
    roleUpdate: Option<Stamp>,           // updated_at / updated_by
    deactivation: Option<Stamp>,         // deactivated_at / deactivated_by
    passwordReset: Option<Stamp>,        // password_reset_at / password_reset_by
    passwordChangedAt: Option<int>)

  datatype Store = Offline | Online(docs: map<string, UserRecord>)

  /** The document id of an address. */
  function Key(email: string): string {
    Lower(email)
  }

  // ---------------------------------------------------------------------
  // Password format: "<hex salt>$<hex digest>"

  function HashPassword(kdf: Kdf, password: string, salt: seq<byte>): (h: string)
    ensures |Split(h, '$')| == 2
    ensures Split(h, '$')[0] == Hex(salt)
    ensures |salt| == SaltBytes ==> |Split(h, '$')[0]| == 2 * SaltBytes
  {
    var s := Hex(salt);
    var d := Hex(kdf(password, s));
    HexAvoids(salt, '$');
    HexAvoids(kdf(password, s), '$');
    SplitPair(s, '$', d);
    s + "$" + d
  }

  /** A stored hash that does not split on `$` into exactly two parts is
      rejected; otherwise the password is re-hashed with the stored salt and
      the hex digests compared. */
  predicate VerifyPassword(kdf: Kdf, password: string, hashed: string) {
    var parts := Split(hashed, '$');
    |parts| == 2 && Hex(kdf(password, parts[0])) == parts[1]
  }

  /** Round trip: a password verifies against its own hash, whatever the salt. */
  lemma PasswordRoundTrip(kdf: Kdf, password: string, salt: seq<byte>)
    ensures VerifyPassword(kdf, password, HashPassword(kdf, password, salt))
  {
    var s := Hex(salt);
    var d := Hex(kdf(password, s));
    HexAvoids(salt, '$');
    HexAvoids(kdf(password, s), '$');
    SplitPair(s, '$', d);
  }

  /** On a well-formed stored hash `salt$digest`, verification is exactly
      digest equality; a hash with more or fewer `$` never verifies. */
  lemma VerifyCharacterized(kdf: Kdf, password: string, salt: string, digest: string)
    requires '$' !in salt && '$' !in digest
    ensures VerifyPassword(kdf, password, salt + "$" + digest) <==> Hex(kdf(password, salt)) == digest
    ensures !VerifyPassword(kdf, password, salt)
    ensures !VerifyPassword(kdf, password, salt + "$" + digest + "$" + salt)
  {
    SplitPair(salt, '$', digest);
    SplitWithoutSep(salt, '$');
    SplitAfterHead(salt, '$', digest + "$" + salt);
    SplitPair(digest, '$', salt);
    assert salt + "$" + digest + "$" + salt == salt + ['$'] + (digest + ['$'] + salt);
  }

  // ---------------------------------------------------------------------
  // Which fields an operation may touch

  predicate SameIdentity(a: UserRecord, b: UserRecord) {
    a.email == b.email && a.createdAt == b.createdAt && a.createdBy == b.createdBy
  }

  predicate SameCredentials(a: UserRecord, b: UserRecord) {
    && a.passwordHash == b.passwordHash && a.forcePasswordChange == b.forcePasswordChange
    && a.passwordReset == b.passwordReset && a.passwordChangedAt == b.passwordChangedAt
  }

  predicate SameRole(a: UserRecord, b: UserRecord) {
    a.role == b.role && a.roleUpdate == b.roleUpdate
  }

  predicate SameActivation(a: UserRecord, b: UserRecord) {
    a.isActive == b.isActive && a.deactivation == b.deactivation
  }

  predicate SameActivity(a: UserRecord, b: UserRecord) {
    a.lastLogin == b.lastLogin && a.loginCount == b.loginCount
  }

  /** `after` has the same documents as `before`, and all but the one at
      `key` are identical. */
  predicate OthersUntouched(before: map<string, UserRecord>, after: map<string, UserRecord>, key: string) {
    after.Keys == before.Keys && forall k :: k in before && k != key ==> after[k] == before[k]
  }

  // ---------------------------------------------------------------------
  // UserManager

  function GetUser(store: Store, email: string): (u: Option<UserRecord>)
    ensures u.Some? <==> store.Online? && Key(email) in store.docs
    ensures u.Some? ==> u.value == store.docs[Key(email)]
  {
    if store.Online? && Key(email) in store.docs then Some(store.docs[Key(email)]) else None
  }

  /** Look-ups ignore case: an address finds the same record as its
      lower-cased form. */
  lemma GetUserIgnoresCase(store: Store, email: string)
    ensures GetUser(store, Lower(email)) == GetUser(store, email)
  {
    LowerIdempotent(email);
  }

  /** Creates an active account keyed by the lower-cased address, unless the
      store is offline or the address is taken. */
  function CreateUser(store: Store, email: string, password: string, role: string,
                      createdBy: Option<string>, now: int, salt: seq<byte>, kdf: Kdf): (r: (bool, Store))
    ensures store.Offline? ==> r == (false, store)
    ensures store.Online? && Key(email) in store.docs ==> r == (false, store)
    ensures store.Online? && Key(email) !in store.docs ==>
      && r.0 && r.1.Online?
      && r.1.docs.Keys == store.docs.Keys + {Key(email)}
      && (forall k :: k in store.docs ==> r.1.docs[k] == store.docs[k])
      && var u := r.1.docs[Key(email)];
         && u.email == Key(email) && u.role == role && u.createdAt == now && u.createdBy == createdBy
         && u.isActive && u.loginCount == 0 && u.lastLogin == None
         && u.forcePasswordChange == None
         && VerifyPassword(kdf, password, u.passwordHash)
  {
    if store.Offline? || GetUser(store, email).Some? then (false, store)
    else
      var u := UserRecord(
        email := Lower(email), passwordHash := HashPassword(kdf, password, salt), role := role,
        createdAt := now, createdBy := createdBy, isActive := true, lastLogin := None,
        loginCount := 0, forcePasswordChange := None, roleUpdate := None, deactivation := None,
        passwordReset := None, passwordChangedAt := None);
      PasswordRoundTrip(kdf, password, salt);
      (true, Online(store.docs[Key(email) := u]))
  }

  /** Records a login: the server-side increment and the login time. A
      missing document or an offline store is left as it is. */
  function UpdateLoginInfo(store: Store, email: string, now: int): (s: Store)
    ensures store.Offline? || Key(email) !in store.docs ==> s == store
    ensures store.Online? && Key(email) in store.docs ==>
      && s.Online? && OthersUntouched(store.docs, s.docs, Key(email))
      && var u, u' := store.docs[Key(email)], s.docs[Key(email)];
         && u'.loginCount == u.loginCount + 1 && u'.lastLogin == Some(now)
         && SameIdentity(u, u') && SameCredentials(u, u') && SameRole(u, u') && SameActivation(u, u')
  {
    if store.Offline? || Key(email) !in store.docs then store
    else
      var u := store.docs[Key(email)];
      Online(store.docs[Key(email) := u.(lastLogin := Some(now), loginCount := u.loginCount + 1)])
  }

  /** Succeeds exactly for an existing, active account whose password
      verifies; the record returned is the one read before the login was
      counted, and only the login count and time change. */
  function AuthenticateUser(store: Store, email: string, password: string, now: int, kdf: Kdf)
    : (r: (Option<UserRecord>, Store))
    ensures r.0.Some? <==>
      && store.Online? && Key(email) in store.docs
      && store.docs[Key(email)].isActive
      && VerifyPassword(kdf, password, store.docs[Key(email)].passwordHash)
    ensures r.0.Some? ==> r.0.value == store.docs[Key(email)]
    ensures r.0.None? ==> r.1 == store
    ensures r.0.Some? ==>
      && r.1.Online? && OthersUntouched(store.docs, r.1.docs, Key(email))
      && var u, u' := store.docs[Key(email)], r.1.docs[Key(email)];
         && u'.loginCount == u.loginCount + 1 && u'.lastLogin == Some(now)
         && SameIdentity(u, u') && SameCredentials(u, u') && SameRole(u, u') && SameActivation(u, u')
  {
    var user := GetUser(store, email);
    if user.Some? && user.value.isActive && VerifyPassword(kdf, password, user.value.passwordHash) then
      (user, UpdateLoginInfo(store, email, now))
    else
      (None, store)
  }

  function UpdateUserRole(store: Store, email: string, newRole: string, updatedBy: Option<string>, now: int)
    : (r: (bool, Store))
    ensures r.0 <==> store.Online? && Key(email) in store.docs
    ensures !r.0 ==> r.1 == store
    ensures r.0 ==>
      && r.1.Online? && OthersUntouched(store.docs, r.1.docs, Key(email))
      && var u, u' := store.docs[Key(email)], r.1.docs[Key(email)];
         && u'.role == newRole && u'.roleUpdate == Some(Stamp(now, updatedBy))
         && SameIdentity(u, u') && SameCredentials(u, u') && SameActivation(u, u') && SameActivity(u, u')
  {
    if store.Offline? || Key(email) !in store.docs then (false, store)
    else
      var u := store.docs[Key(email)];
      (true, Online(store.docs[Key(email) := u.(role := newRole, roleUpdate := Some(Stamp(now, updatedBy)))]))
  }

  function DeactivateUser(store: Store, email: string, deactivatedBy: Option<string>, now: int)
    : (r: (bool, Store))
    ensures r.0 <==> store.Online? && Key(email) in store.docs
    ensures !r.0 ==> r.1 == store
    ensures r.0 ==>
      && r.1.Online? && OthersUntouched(store.docs, r.1.docs, Key(email))
      && var u, u' := store.docs[Key(email)], r.1.docs[Key(email)];
         && !u'.isActive && u'.deactivation == Some(Stamp(now, deactivatedBy))
         && SameIdentity(u, u') && SameCredentials(u, u') && SameRole(u, u') && SameActivity(u, u')
  {
    if store.Offline? || Key(email) !in store.docs then (false, store)
    else
      var u := store.docs[Key(email)];
      (true, Online(store.docs[Key(email) := u.(isActive := false, deactivation := Some(Stamp(now, deactivatedBy)))]))
  }

  /** An administrator's reset: a fresh hash of the temporary password, and
      the flag that forces a change at the next login. */
  function ResetUserPassword(store: Store, email: string, newPassword: string, resetBy: Option<string>,
                             now: int, salt: seq<byte>, kdf: Kdf): (r: (bool, Store))
    ensures r.0 <==> store.Online? && Key(email) in store.docs
    ensures !r.0 ==> r.1 == store
    ensures r.0 ==>
      && r.1.Online? && OthersUntouched(store.docs, r.1.docs, Key(email))
      && var u, u' := store.docs[Key(email)], r.1.docs[Key(email)];
         && VerifyPassword(kdf, newPassword, u'.passwordHash)
         && u'.forcePasswordChange == Some(true) && u'.passwordReset == Some(Stamp(now, resetBy))
         && u'.passwordChangedAt == u.passwordChangedAt
         && SameIdentity(u, u') && SameRole(u, u') && SameActivation(u, u') && SameActivity(u, u')
  {
    if store.Offline? || Key(email) !in store.docs then (false, store)
    else
      var u := store.docs[Key(email)];
      PasswordRoundTrip(kdf, newPassword, salt);
      (true, Online(store.docs[Key(email) := u.(passwordHash := HashPassword(kdf, newPassword, salt),
                                                passwordReset := Some(Stamp(now, resetBy)),
                                                forcePasswordChange := Some(true))]))
  }

  /** A user's own change: the old password must verify; then the hash is
      replaced and the forced-change flag cleared. The account need not be
      active. */
  function ChangeOwnPassword(store: Store, email: string, oldPassword: string, newPassword: string,
                             now: int, salt: seq<byte>, kdf: Kdf): (r: (bool, Store))
    ensures r.0 <==> store.Online? && Key(email) in store.docs
                     && VerifyPassword(kdf, oldPassword, store.docs[Key(email)].passwordHash)
    ensures !r.0 ==> r.1 == store
    ensures r.0 ==>
      && r.1.Online? && OthersUntouched(store.docs, r.1.docs, Key(email))
      && var u, u' := store.docs[Key(email)], r.1.docs[Key(email)];
         && VerifyPassword(kdf, newPassword, u'.passwordHash)
         && u'.forcePasswordChange == Some(false) && u'.passwordChangedAt == Some(now)
         && u'.passwordReset == u.passwordReset
         && SameIdentity(u, u') && SameRole(u, u') && SameActivation(u, u') && SameActivity(u, u')
  {
    if store.Offline? then (false, store)
    else
      var user := GetUser(store, email);
      if user.None? || !VerifyPassword(kdf, oldPassword, user.value.passwordHash) then (false, store)
      else
        PasswordRoundTrip(kdf, newPassword, salt);
        (true, Online(store.docs[Key(email) := user.value.(passwordHash := HashPassword(kdf, newPassword, salt),
                                                            passwordChangedAt := Some(now),
                                                            forcePasswordChange := Some(false))]))
  }

  // ---------------------------------------------------------------------
  // Properties that relate several operations

  /** After a deactivation no password opens the account, under any spelling
      of the address that lower-cases to the same id. */
  lemma DeactivatedCannotLogIn(store: Store, email: string, actor: Option<string>, now: int,
                               spelling: string, password: string, later: int, kdf: Kdf)
    requires Key(spelling) == Key(email)
    ensures AuthenticateUser(DeactivateUser(store, email, actor, now).1, spelling, password, later, kdf).0.None?
  {
  }

  /** A freshly created account accepts its password at once; the login
      returns the record with no logins counted and the store then holds one. */
  lemma CreatedUserCanLogIn(store: Store, email: string, password: string, role: string,
                            actor: Option<string>, now: int, salt: seq<byte>, later: int, kdf: Kdf)
    requires CreateUser(store, email, password, role, actor, now, salt, kdf).0
    ensures var s := CreateUser(store, email, password, role, actor, now, salt, kdf).1;
      var (u, s') := AuthenticateUser(s, email, password, later, kdf);
      && u.Some? && u.value.loginCount == 0 && u.value.role == role
      && s'.Online? && s'.docs[Key(email)].loginCount == 1
  {
  }

  /** Creation and look-up agree: creating fails exactly when the address is
      already found (or the store is offline); after a creation the address
      finds the new record, which accepts the password, and every other
      address finds what it found before. */
  lemma CreatedUserIsFound(store: Store, email: string, password: string, role: string,
                           actor: Option<string>, now: int, salt: seq<byte>, kdf: Kdf, other: string)
    ensures !CreateUser(store, email, password, role, actor, now, salt, kdf).0 <==>
      store.Offline? || GetUser(store, email).Some?
    ensures var (created, s) := CreateUser(store, email, password, role, actor, now, salt, kdf);
      created ==>
        && GetUser(s, email).Some?
        && GetUser(s, email).value.email == Key(email)
        && VerifyPassword(kdf, password, GetUser(s, email).value.passwordHash)
        && (Key(other) != Key(email) ==> GetUser(s, other) == GetUser(store, other))
  {
  }

  /** After an administrator's reset the temporary password logs an active
      user in, and the record returned demands a password change. */
  lemma ResetPasswordLogsIn(store: Store, email: string, temp: string, actor: Option<string>, now: int,
                            salt: seq<byte>, later: int, kdf: Kdf)
    requires store.Online? && Key(email) in store.docs && store.docs[Key(email)].isActive
    ensures var s := ResetUserPassword(store, email, temp, actor, now, salt, kdf).1;
      var u := AuthenticateUser(s, email, temp, later, kdf).0;
      u.Some? && u.value.forcePasswordChange == Some(true)
  {
  }

  /** After a successful change of one's own password, the new password
      logs an active user in and no change is demanded any more. */
  lemma ChangedPasswordLogsIn(store: Store, email: string, oldPassword: string, newPassword: string, now: int,
                              salt: seq<byte>, later: int, kdf: Kdf)
    requires ChangeOwnPassword(store, email, oldPassword, newPassword, now, salt, kdf).0
    requires store.docs[Key(email)].isActive
    ensures var s := ChangeOwnPassword(store, email, oldPassword, newPassword, now, salt, kdf).1;
      var u := AuthenticateUser(s, email, newPassword, later, kdf).0;
      u.Some? && u.value.forcePasswordChange == Some(false)
  {
  }

  // ---------------------------------------------------------------------
  // get_all_users

  /** A listed user: every field but the password hash, with the e-mail
      taken from the document id. */
  datatype UserView = UserView(
    email: string,
    role: string,
    createdAt: int,
    createdBy: Option<string>,
    isActive: bool,
    lastLogin: Option<int>,
    loginCount: int,
    forcePasswordChange: Option<bool>,
    roleUpdate: Option<Stamp>,
    deactivation: Option<Stamp>,
    passwordReset: Option<Stamp>,
    passwordChangedAt: Option<int>)

  function ViewOf(id: string, u: UserRecord): UserView {
    UserView(id, u.role, u.createdAt, u.createdBy, u.isActive, u.lastLogin, u.loginCount,
             u.forcePasswordChange, u.roleUpdate, u.deactivation, u.passwordReset, u.passwordChangedAt)
  }

  predicate NewestFirst(users: seq<UserView>) {
    forall i, j :: 0 <= i < j < |users| ==> users[i].createdAt >= users[j].createdAt
  }

  /** Places `v` after every entry at least as new, keeping the order. */
  function InsertNewestFirst(users: seq<UserView>, v: UserView): (r: seq<UserView>)
    requires NewestFirst(users)
    ensures NewestFirst(r)
    ensures |r| == |users| + 1
    ensures forall x :: x in r <==> x in users || x == v
    decreases |users|
  {
    if |users| == 0 then [v]
    else if users[0].createdAt < v.createdAt then [v] + users
    else
      var rest := InsertNewestFirst(users[1..], v);
      assert forall x :: x in users[1..] ==> x.createdAt <= users[0].createdAt;
      assert forall i :: 0 <= i < |rest| ==> rest[i] in rest;
      [users[0]] + rest
  }

  /** Every account once, without its password hash, newest first. */
  method GetAllUsers(store: Store) returns (users: seq<UserView>)
    ensures store.Offline? ==> users == []
    ensures store.Online? ==> |users| == |store.docs|
    ensures store.Online? ==> forall k :: k in store.docs ==> ViewOf(k, store.docs[k]) in users
    ensures store.Online? ==> forall v :: v in users ==> v.email in store.docs && v == ViewOf(v.email, store.docs[v.email])
    ensures NewestFirst(users)
  {
    users := [];
    if store.Offline? {
      return;
    }
    var docs := store.docs;
    var remaining := docs.Keys;
    while remaining != {}
      invariant remaining <= docs.Keys
      invariant |users| + |remaining| == |docs.Keys|
      invariant forall k :: k in docs && k !in remaining ==> ViewOf(k, docs[k]) in users
      invariant forall v :: v in users ==> v.email in docs && v.email !in remaining && v == ViewOf(v.email, docs[v.email])
      invariant NewestFirst(users)
      decreases remaining
    {
      var k :| k in remaining;
      users := InsertNewestFirst(users, ViewOf(k, docs[k]));
      remaining := remaining - {k};
    }
  }

  // ---------------------------------------------------------------------
  // has_permission

  /** The login state of a browser session: whether it is authenticated and
      the `role` field of its user data, if any. */
  datatype Session = Session(authenticated: bool, role: Option<string>)

  /** Rank of the user's own role; an unknown role ranks 0. */
  function RoleRank(role: string): nat {
    if role == "user" then 1
    else if role == "admin" then 2
    else if role == "super_admin" then 3
    else 0
  }

  /** Rank a check demands; an unknown requirement demands what "user" does. */
  function RequiredRank(required: string): nat {
    if required == "admin" then 2
    else if required == "super_admin" then 3
    else 1
  }

  /** The session's role, "user" when the user data has none. */
  function SessionRole(session: Session): string {
    match session.role
    case Some(r) => r
    case None => "user"
  }

  predicate HasPermission(session: Session, required: string) {
    session.authenticated && RoleRank(SessionRole(session)) >= RequiredRank(required)
  }

  /** Nothing is permitted before login, and a role outside the hierarchy is
      never permitted anything. */
  lemma PermissionNeedsKnownRole(session: Session, required: string)
    ensures !session.authenticated ==> !HasPermission(session, required)
    ensures SessionRole(session) !in {"user", "admin", "super_admin"} ==> !HasPermission(session, required)
  {
  }

  /** The admin panel is open exactly to authenticated admins and super
      admins; every authenticated known role passes a "user" check. */
  lemma AdminCheckCharacterized(session: Session)
    ensures HasPermission(session, "admin")
        <==> session.authenticated && SessionRole(session) in {"admin", "super_admin"}
    ensures HasPermission(session, "user")
        <==> session.authenticated && SessionRole(session) in {"user", "admin", "super_admin"}
  {
  }

  /** Monotone in the role: a higher-ranked role passes every check a lower
      one passes; in particular a super admin passes every admin check. */
  lemma PermissionMonotone(low: Session, high: Session, required: string)
    requires high.authenticated
    requires RoleRank(SessionRole(high)) >= RoleRank(SessionRole(low))
    ensures HasPermission(low, required) ==> HasPermission(high, required)
  {
  }
}
